=== FILE: README.md ===
# ThriftTool symbol resolution, modelled in Dafny

This project models the core of `ThriftTool` from thrift-mock. That is the code that turns a parsed Thrift
document into mock JSON:

- **Definition store.** The store (`kind -> name -> definition`) is created with one empty map per kind. It is
  filled kind by kind from each definition's leaf parser. `findThriftType` searches it in the declared kind
  order, and the first kind that defines a name wins.
- **Descriptor resolvers.**
  - `resolveMixType` turns a type-syntax node into a `{valueStyle, valueType[, keyType]}` descriptor.
  - `resolveMixValue` turns a constant-value node into a plain value. A list or set becomes an array, and a map
    becomes an array of one-entry objects.
- **`gen`.** It dispatches a name to the leaf generator of the kind that defines it.
- **`resolveDefUnion`.**
  - Phase 1 (`_replaceDefUnionType`) rewrites typedef entries and union members through the struct generator.
  - Phase 2 walks exceptions, structs and service methods. A reference to a typedef is merged with the typedef
    entry. A reference to a union is walked, or else flattened to a display string.
- **`parse`.** It categorises the definitions, resolves them, and then generates one named definition or every
  stored name of every kind.

JavaScript values are the datatype `Json.J`. In-place mutation is modelled by returning the updated value.
The leaf parsers, the leaf generators, the struct generator and `Utils.isObject` are parameters. Their code is
not part of this model.

The modules follow the program's structure:

| module | file | what it holds |
|---|---|---|
| `Json`, `Kinds`, `Errors`, `Wrappers` | `json.dfy`, `kinds.dfy`, `errors.dfy`, `wrappers.dfy` | values, kinds, failures |
| `DefinitionStore` | `store.dfy` | the store and the kind lookup |
| `TypeDescriptor`, `ConstValue` | `type_descriptor.dfy`, `const_value.dfy` | the two descriptor resolvers |
| `Dispatcher` | `dispatcher.dfy` | `gen` |
| `NormalisePhase`, `InlinePhase`, `DefUnion` | `normalise.dfy`, `inline.dfy`, `def_union.dfy` | the two phases and their properties |
| `Rendering`, `ThriftTool` | `rendering.dfy`, `thrift_tool.dfy` | `parse` and its generate-all branch |

The model follows the code as written. These places are easy to misread:

- **Empty definitions list.** `if (!DEFINITIONS)` only rejects a missing definitions array. An empty array is
  truthy, so it passes, and `parse` on a fresh instance then returns a map of empty maps
  (`ThriftTool.EmptyDefinitionsAccepted`).
- **Failures in generate-all.** The generate-all branch does not catch anything: the first `gen` that raises
  ends the whole call, and no partial map is returned (`ThriftTool.GenerateAll`).
- **One store per instance.** The store is created in the constructor and `parse` never resets it. A second
  `parse` on the same instance categorises into the store the first one left, and runs both phases again
  over it (`ThriftTool.Parse`, `ThriftTool.ResolveKeepsNames`).
- **Reading the struct generator's rendering.** Phase 1 reads `rendering[key]`. A null or undefined rendering
  throws a TypeError; an array or string rendering yields its element or character at an index key
  (`NormalisePhase.NormaliseFieldReads`).
- **Defined names.** A name counts as defined under a kind only when its stored value is truthy, not merely
  present (`DefinitionStore.Defines`).
- **Union references.** When `isObject` accepts plain objects, a reference to a union is walked rather than
  flattened. Every reference is a plain object, so the flattening branch never runs in that case
  (`DefUnion.UnionReferenceNotFlattened`).
- **Repeated method walk.** The service loop walks a service's methods once for every own key of the service
  entry, not once. This is harmless unless a typedef entry forwards a reference to another typedef or to a
  union. Aliases of structs, enums, exceptions, services and consts are harmless
  (`DefUnion.RepeatedMethodWalkIsOneWalk`, `DefUnion.StructAliasSettled`). Typedef chains are not: the field
  of a two-key service follows a chain `A -> B -> i32` to the end, while the same field in a struct stops at
  `B` (`DefUnion.ChainInStruct`, `DefUnion.ChainInService`).
- **Idempotence.** Running Phase 2 again is a no-op under the same condition (`DefUnion.InlineIdempotent`). The
  chain above shows that it can change the store when a typedef forwards to another typedef.

## Model

| member | source | states |
|---|---|---|
| DefinitionStore.CreateStore | src/thrift-tool/index.js:18-24 | the new store has an entry for every declared kind, each empty, and no other entries |
| DefinitionStore.CreatedStoreFindsNothing | src/thrift-tool/index.js:18-24 | no name resolves to a kind in a freshly created store |
| DefinitionStore.SetStoreByType | src/thrift-tool/index.js:27-29 | merging a payload adds its names to the kind, payload values win, names it does not mention keep their values, other kinds are untouched |
| DefinitionStore.FindKind | src/thrift-tool/index.js:127-136 | no kind is found exactly when no declared kind defines the name (truthy entry); otherwise the answer is the first kind in the order that defines it |
| DefinitionStore.EarlierKindWins | src/thrift-tool/index.js:130-134 | whenever kind i defines the name and no earlier kind does, the lookup answers kind i, whatever later kinds hold |
| DefinitionStore.FindKindRespectsDefines | src/thrift-tool/index.js:127-136 | two stores in which every declared kind defines the name alike resolve the name to the same kind |
| DefinitionStore.StructBeatsConst | src/thrift-tool/index.js:127-136 | with the declared order, a name defined both as struct and as const (and not as typedef) resolves to struct |
| Kinds.KindOf | src/thrift-tool/index.js:70 | the kind selected by a lower-cased tag has that tag as its store key and is the only spelling of it |
| Kinds.KindNameRoundTrip | src/thrift-tool/index.js:70-73 | every kind is recovered from its store key |
| TypeDescriptor.ResolveMixType | src/thrift-tool/index.js:139-168 | a canonically spelled node yields no descriptor exactly when its discriminator is none of the five known ones; otherwise the descriptor's style is the node's lower-cased discriminator |
| TypeDescriptor.ResolveThenRecover | src/thrift-tool/index.js:139-168 | on a node built only from known discriminators the descriptor is complete and the node is recovered from it |
| TypeDescriptor.RecoverThenResolve | src/thrift-tool/index.js:139-168 | every complete descriptor is what the resolver produces for its node (the resolver is onto the complete descriptors) |
| TypeDescriptor.JsonRoundTrip | src/thrift-tool/index.js:141-167 | the JavaScript object produced for a descriptor, with `undefined` for missing components, determines the descriptor |
| ConstValue.TagSelectsContainer | src/thrift-tool/index.js:173-190 | a canonically spelled node other than a literal resolves to an array exactly when its lower-cased discriminator is the prefix followed by `list`, `set` or `map` |
| ConstValue.ResolveMixValue | src/thrift-tool/index.js:172-191 | a literal resolves to its value; a list or set with the matching prefix to an array of the same length of resolved elements; a map to one singleton object per entry keyed by the coerced raw key; anything else to `undefined` |
| ConstValue.QuoteRoundTrip | src/thrift-tool/index.js:172-182 | resolving the constant syntax of any value, lists nested to any depth, gives the value back |
| ConstValue.PrefixNotPropagated | src/thrift-tool/index.js:178-181 | a custom prefix matches only the outermost container; a nested container with the same prefix resolves to `undefined` |
| ConstValue.DuplicateMapKeysKept | src/thrift-tool/index.js:184-190 | two map entries with the same key give two singleton objects, in entry order, neither lost |
| Dispatcher.Gen | src/thrift-tool/index.js:106-124 | a name no kind defines fails with NotFound; otherwise the first defining kind's generator renders the stored definition, or MissingGenerator when that kind has none |
| Dispatcher.GenDispatchFailures | src/thrift-tool/index.js:110-122 | with generators that never fail, `gen` fails exactly when the lookup misses or the found kind has no generator, and NotFound exactly on a miss |
| Json.DigitsRoundTrip | src/thrift-tool/index.js:198-204 | the decimal text of every natural number is an array index key that denotes that number |
| Json.ReadIndex | src/thrift-tool/index.js:199-204 | reading an array or string at the text of an index gives the element or one-character string there, and `undefined` past the end |
| NormalisePhase.NormaliseField | src/thrift-tool/index.js:199-204 | rewriting one member fails with a TypeError exactly when the struct generator renders null or undefined for it |
| NormalisePhase.NormaliseFieldReads | src/thrift-tool/index.js:199-204 | the rewritten member is the rendering's own member of that name for an object, its element or character at the index for an array or string, and `undefined` for a number or boolean |
| NormalisePhase.NormaliseFields | src/thrift-tool/index.js:197-205 | rewriting an object fails with a TypeError exactly when some member's rendering is null or undefined; otherwise every key is kept and each member becomes its own rewrite |
| NormalisePhase.NormaliseUnionEntry | src/thrift-tool/index.js:197-216 | a union entry fails exactly when it is null, undefined, a non-empty string, or has a member (an index, for arrays) whose rendering is null or undefined; otherwise objects keep their keys and arrays their length, each member becoming its rewrite under its key or index text, and other values stay as they are |
| NormalisePhase.NormaliseDefUnion | src/thrift-tool/index.js:194-217 | Phase 1 fails exactly when the typedef or union map is missing, a typedef entry's rendering is null or undefined, or a union entry cannot be rewritten; it rewrites every typedef entry and union entry and leaves all other kinds alone |
| NormalisePhase.NormaliseKeepsUnionsDefined | src/thrift-tool/index.js:212-216 | Phase 1 never changes whether a name is defined as a union |
| InlinePhase.Step | src/thrift-tool/index.js:231-259 | handling one field leaves it as it is or turns an object into an object |
| InlinePhase.Walk | src/thrift-tool/index.js:228-261 | a value `isObject` rejects is not changed; objects keep their keys, arrays their length |
| InlinePhase.Flatten | src/thrift-tool/index.js:248-257 | the flattened field keeps its other keys, gets style `union`, and its `valueType` is the union's member texts joined by the separator |
| InlinePhase.UnionMembersListed | src/thrift-tool/index.js:251-256 | when the key order lists every key of a plain-object union exactly once, as `Object.keys` does, the member texts are one per key, each the member under its key (itself if a string, else stringified), and every member of the union appears |
| InlinePhase.WalkMethod | src/thrift-tool/index.js:271-274 | a method object keeps its keys, and every key other than `returns`, `arguments` and `throws` keeps its value; a method that is not an object is unchanged |
| InlinePhase.WalkMethodsTimes | src/thrift-tool/index.js:264-268 | its own contract states only that a failure is a TypeError and that an object stays an object; `DefUnion.RepeatedMethodWalkIsOneWalk` and `DefUnion.ChainInService` state what the repetition does |
| InlinePhase.WalkEntries | src/thrift-tool/index.js:279-282 | every struct or exception entry keeps its name and its truthiness, and an entry `isObject` rejects is unchanged |
| InlinePhase.WalkMethods | src/thrift-tool/index.js:269-276 | walking the methods fails with a TypeError exactly when the service member, or one of its methods, is null or undefined; otherwise method names (or indexes) are kept and each method becomes its own walk |
| InlinePhase.ResolveServiceEntry | src/thrift-tool/index.js:266-277 | an entry fails exactly when it is null or undefined, or has own keys but no `service` member, or the repeated method walk fails; an entry without own keys is unchanged; otherwise only its `service` member changes, into the method walk repeated once per own key |
| InlinePhase.ResolveServices | src/thrift-tool/index.js:264-277 | the service kind fails exactly when some entry fails; otherwise every entry is resolved under its own name |
| InlinePhase.InlineStore | src/thrift-tool/index.js:224-284 | Phase 2 fails exactly when exception, struct or service is missing or a service entry fails; it rewrites those three kinds and no other |
| DefUnion.ResolveDefUnion | src/thrift-tool/index.js:220-285 | both phases keep the kinds of the store; kinds other than the five touched are unchanged; typedef and union end as Phase 1 left them; after a successful Phase 1 the whole call fails exactly when exception, struct or service is missing or a service entry fails, and otherwise exception and struct entries are walked and service entries resolved, names looked up in the Phase-1 store |
| DefUnion.ResolveKeepsKeys | src/thrift-tool/index.js:194-285 | both phases keep the names stored under every kind |
| DefUnion.TypedefFieldInlined | src/thrift-tool/index.js:237-240 | a struct or exception field referring to a typedef becomes the field merged with the typedef entry, typedef keys winning, even when a later kind defines the same name |
| DefUnion.OtherFieldsUntouched | src/thrift-tool/index.js:234-259 | fields that are not references, or refer to a struct, exception, enum, service, const or nothing, are left exactly as they are |
| DefUnion.NonObjectEntryUntouched | src/thrift-tool/index.js:229 | an entry `isObject` rejects is not rewritten |
| DefUnion.UnionReferenceNotFlattened | src/thrift-tool/index.js:243-247 | when `isObject` accepts plain objects, a field referring to a union stays an `identifier` reference to the same name with the same keys |
| DefUnion.UnionReferenceFlattened | src/thrift-tool/index.js:243-257 | a field referring to a union that `isObject` rejects keeps its other keys, gets style `union` and a string `valueType` |
| DefUnion.IdentifierDescriptorIsReference | src/thrift-tool/index.js:148-153 | the descriptor `resolveMixType` makes for an identifier is exactly what Phase 2 treats as a reference to that name |
| DefUnion.StepIdempotent | src/thrift-tool/index.js:234-259 | unless a typedef entry forwards a reference to another typedef or to a union, handling a field a second time changes nothing |
| DefUnion.WalkIdempotent | src/thrift-tool/index.js:228-261 | unless a typedef entry forwards a reference to another typedef or to a union, walking an already walked value changes nothing |
| DefUnion.RepeatedMethodWalkIsOneWalk | src/thrift-tool/index.js:268-276 | unless a typedef entry forwards a reference to another typedef or to a union, repeating the method walk any positive number of times is one walk |
| DefUnion.ServiceSlotWalkedOnce | src/thrift-tool/index.js:263-277 | unless a typedef entry forwards a reference to another typedef or to a union, each `returns`/`arguments`/`throws` slot of each service method ends up walked exactly once |
| DefUnion.InlineCongruent | src/thrift-tool/index.js:224-284 | Phase 2 gives the same result in any two stores that resolve every name alike and hold the same typedef and union entries |
| DefUnion.InlineKeepsDefines | src/thrift-tool/index.js:224-284 | Phase 2 never changes whether a kind defines a name |
| DefUnion.InlineKeepsResolution | src/thrift-tool/index.js:235 | after Phase 2 every name resolves to the same kind and the typedef and union entries are unchanged, so looking names up in the Phase-1 store matches the in-place loop |
| DefUnion.StructAliasSettled | src/thrift-tool/index.js:234-240 | a typedef that aliases a struct satisfies the condition of the idempotence lemmas |
| DefUnion.InlineIdempotent | src/thrift-tool/index.js:220-285 | unless a typedef entry forwards a reference to another typedef or to a union, running Phase 2 on its own output returns it unchanged |
| DefUnion.ChainSteps | src/thrift-tool/index.js:238-240 | in a chain `typedef B A; typedef i32 B` one step takes a reference to A to B, and one takes B to i32 |
| DefUnion.ChainInStruct | src/thrift-tool/index.js:279-282 | a struct field of type A ends as a reference to B: the chain is followed one link |
| DefUnion.ChainInService | src/thrift-tool/index.js:268-276 | the same field in a method of a service entry with two keys ends at i32: the chain is followed two links |
| Rendering.GenerateKind | src/thrift-tool/index.js:93-97 | rendering a kind succeeds exactly when every name renders, the result maps each name to its rendering, and a failure is the error of one of the names |
| Rendering.GenerateKinds | src/thrift-tool/index.js:91-98 | going through the kinds in order succeeds exactly when every kind renders; the result has exactly the given kinds, each with its full rendering; a failure is a name's error in the first kind that fails |
| ThriftTool.Categorize | src/thrift-tool/index.js:69-77 | categorisation fails exactly when some definition has no leaf parser or its parser raises, with the error of the first such definition (an unknown lower-cased tag, or what the parser raised); otherwise no kind is lost |
| ThriftTool.CategorizeContents | src/thrift-tool/index.js:69-77 | a kind holds a name exactly when it held it before or some definition stores it there; the value is the last such definition's, read independently from the end |
| ThriftTool.CategorizeKinds | src/thrift-tool/index.js:69-77 | the store's kinds after categorisation are the initial kinds plus the kinds of the definitions, and nothing else |
| ThriftTool.GenerateAll | src/thrift-tool/index.js:89-100 | generate-all succeeds exactly when every non-empty stored name of every declared kind generates; the result has one map per declared kind whose keys are exactly those names and whose values are what `gen` makes of them; a failure is the error of a name in the first kind that has a failing name |
| ThriftTool.ShadowedNameUsesFirstKind | src/thrift-tool/index.js:91-97 | a name stored under several kinds is generated in every kind's map by the generator of the first kind that defines it |
| ThriftTool.ResolvedStore | src/thrift-tool/index.js:69-86 | a definition with no leaf parser, or whose parser raises, makes the whole resolution fail with the error of the first such definition; a successful resolution loses no kind of the store |
| ThriftTool.ResolveKeepsNames | src/thrift-tool/index.js:69-86 | after a successful resolution the instance store still holds every name it held before and every name a definition of this call stored, under the same kind |
| ThriftTool.EmptyDefinitionsAccepted | src/thrift-tool/index.js:59-61 | an empty definitions list is not rejected: on a fresh instance with the standard kinds declared, resolution succeeds and every kind generates to an empty map |
| ThriftTool.Parse | src/thrift-tool/index.js:45-103 | on an instance whose store has a map for every declared kind, and whose kinds are spelled as the source spells them, the store afterwards still has one for every kind, so calls chain; no definitions array gives a syntax error and leaves the store alone; a resolution failure is passed on; after a successful resolution the instance keeps the resolved store; with a non-empty name the answer is `gen(name)`; without one it is the generate-all map, failing exactly when some listed name fails |

## Left out

- Reading and parsing the Thrift file (`thriftrw`, the file system, `path.resolve`) is left out. The model
  starts from the entry point's definitions list, or its absence. A parser exception is the same
  `SyntaxError` as an absent list.
- The leaf parsers (`src/parser`), the leaf generators (`src/generator`) and `Icon['or']` are not part of this
  model. They are parameters. A leaf parser answers with its entries or with the error it raises. The kind list (`src/constants/type.js`) is a parameter too, with
  `Kinds.DefaultOrder` as the documented order.
- `@lushijie/utils` is not part of this model.
  - `Utils.extend` is modelled as a shallow merge that writes onto, and returns, its first argument.
  - `Utils.isObject` is a parameter that depends only on the runtime kind of the value and rejects null and
    undefined.
  - `Utils.isFunction` is modelled as presence in the parser or generator map.
- The diagnostic snapshots, `getResult` and `getStore` are left out. `result[1]` keeps the definitions list,
  and `result[2]` and `result[3]` copy the store after categorisation and after the two phases.
- Error message text is left out: failures are tagged values.
- Aliasing between store entries is not modelled. A shallow merge can make two entries share one object, and
  a later in-place change would then show through both. The model treats values as values.
- NormalisePhase.NormaliseField: the `gen` callback handed to the struct generator is not modelled. The
  generator is an opaque function of the one-field syntax that does not raise on its own, so an error a
  nested `gen` raises during Phase 1 and the store contents such a callback could observe are not tracked.
  A null or undefined rendering is modelled: it raises a TypeError.
- Json.Read: members that strings, numbers and booleans inherit (`toString`, `charAt`, ...) read as
  `undefined`. Only own members, index keys and `length` are modelled.
- Json.Extend: a second argument that is not a plain object is taken to add nothing. A merge in the style of
  `Object.assign` or `for...in` would copy the index keys of a string or array. `@lushijie/utils` is not
  part of this model, and Phase 1 can leave a string or array as a typedef entry, so this matters for
  `Utils.extend(ele, store['typedef'][name])`.
- InlinePhase.WalkMethodsTimes: its own contract states only the error tag and the object shape. What the
  repetition does is stated by `DefUnion.RepeatedMethodWalkIsOneWalk` and `DefUnion.ChainInService`.
- Json.Read: `length` and index keys count Dafny characters, while JavaScript counts UTF-16 code units, so the
  two differ on strings with characters outside the Basic Multilingual Plane. The same holds for
  `Json.ReadIndex` and for `Json.PropertyKey`.
- DefinitionStore.FindKind: a kind whose store key is the empty string is looked up like any other kind. In
  the source, `!matchedType` lets a later kind replace it, and `gen` then reports the name as not found. The
  kinds of `src/constants/type.js` never have an empty key; only a kind list given as a parameter could.
- ThriftTool.Parse: the instance store after a call that raises during categorisation or the two phases is
  not modelled; the model returns the store it was given. The source keeps whatever was merged or
  rewritten before the throw, and which Phase 1 entries were rewritten depends on `Object.keys` order.
- InlinePhase.Step: its own contract states only the shape of its result. What it does to each kind of
  reference is stated by `DefUnion.TypedefFieldInlined`, `DefUnion.OtherFieldsUntouched`,
  `DefUnion.UnionReferenceNotFlattened` (union references when `isObject` accepts plain objects) and
  `DefUnion.UnionReferenceFlattened` (union references it rejects).
- InlinePhase.Walk: likewise, its own contract states only which values it leaves alone and that it keeps keys
  and lengths. The per-field effect is stated by the same `DefUnion` lemmas.
- InlinePhase.Step: the flattened union text uses opaque `JSON.stringify`, separator and key order parameters.
  The text itself is therefore not pinned down.
- InlinePhase.Flatten: the key order is a parameter, and nothing in `Library` forces it to list every key
  once. `InlinePhase.UnionMembersListed` states the member texts under that condition. The order itself
  stays open, because a map does not record insertion order.
- ThriftTool.Categorize: a leaf parser is a function of the definition alone. The source also passes the
  instance (`fn(ele, this)`), and a parser that reads or changes the instance's store is not modelled. A
  parser that raises is modelled: it stops categorisation with its error.
- ThriftTool.GenerateAll: the order of `Object.keys` is not modelled. When several names of one kind fail,
  the reported error is that of one of them, not necessarily the first in insertion order.
- Rendering.GenerateKind: same as `ThriftTool.GenerateAll`. Which failing name is reported is left open.
- Rendering.GenerateKinds: same as `ThriftTool.GenerateAll`. Which failing name is reported is left open.
- Rendering.GenerateKinds: `ALL[type] || {}` is not modelled. It only matters for a kind listed twice, and there
  the second pass produces the same map.
- `toLowerCase` is modelled on ASCII letters only.
- Numbers are integers, so floating point and `NaN` are left out.
- Keys inherited through the prototype chain are left out. JavaScript objects are maps of their own keys.
- Cyclic typedef or union chains need no special treatment. The walk never follows a name into the referenced
  definition: it merges the entry, or it descends into the field's own members. So the walk ends on any
  input. The model does not cover recursion that a leaf generator performs through `gen`.

=== FILE: const_value.dfy ===
/**
 * `resolveMixValue`: a constant-value syntax node becomes a plain value. A
 * literal is returned as is, a `<prefix>list`/`<prefix>set` becomes an array
 * of its resolved elements, a `<prefix>map` becomes an array of one-entry
 * objects; nested nodes are always resolved with the default prefix.
 */
module ConstValue {
  import opened Json

  const DefaultPrefix: string := "const"

  /**
   * A constant-value node. Container constructors carry the part of their
   * lower-cased discriminator before `list`/`set`/`map` (`"const"` for
   * `ConstList`); `OtherValueNode` is any other discriminator.
   */
  datatype ValueNode =
    | LiteralNode(value: J)
    | ListValueNode(tagPrefix: string, values: seq<ValueNode>)
    | SetValueNode(tagPrefix: string, values: seq<ValueNode>)
    | MapValueNode(tagPrefix: string, entries: seq<MapEntry>)
    | OtherValueNode(tag: string)

  /** A map entry: the key is taken as the raw `entry.key.value`. */
  datatype MapEntry = MapEntry(key: J, value: ValueNode)

  /**
   * `resolveMixValue(node, prefix)`. A container matches when its
   * discriminator is `prefix + "list"` (or `set`, `map`), that is, when its
   * tag prefix equals `prefix`; anything unmatched yields `undefined`.
   */
  function ResolveMixValue(node: ValueNode, prefix: string): (r: J)
    ensures node.LiteralNode? ==> r == node.value
    ensures (node.ListValueNode? || node.SetValueNode?) && node.tagPrefix == prefix ==>
              r.JArr? && |r.items| == |node.values|
              && forall i :: 0 <= i < |node.values| ==> r.items[i] == ResolveMixValue(node.values[i], DefaultPrefix)
    ensures node.MapValueNode? && node.tagPrefix == prefix ==>
              r.JArr? && |r.items| == |node.entries|
              && forall i :: 0 <= i < |node.entries| ==>
                   r.items[i] == JObj(map[PropertyKey(node.entries[i].key) := ResolveMixValue(node.entries[i].value, DefaultPrefix)])
    ensures !node.LiteralNode? && (node.OtherValueNode? || node.tagPrefix != prefix) ==> r == JUndefined
    decreases node
  {
    match node
    case LiteralNode(v) => v
    case ListValueNode(p, vs) =>
      if p == prefix then JArr(seq(|vs|, i requires 0 <= i < |vs| => ResolveMixValue(vs[i], DefaultPrefix)))
      else JUndefined
    case SetValueNode(p, vs) =>
      if p == prefix then JArr(seq(|vs|, i requires 0 <= i < |vs| => ResolveMixValue(vs[i], DefaultPrefix)))
      else JUndefined
    case MapValueNode(p, es) =>
      if p == prefix then
        JArr(seq(|es|, i requires 0 <= i < |es| =>
          JObj(map[PropertyKey(es[i].key) := ResolveMixValue(es[i].value, DefaultPrefix)])))
      else JUndefined
    case OtherValueNode(_) => JUndefined
  }

  /** The lower-cased discriminator a node stands for. */
  function ValueTag(node: ValueNode): string {
    match node
    case LiteralNode(_) => "literal"
    case ListValueNode(p, _) => p + "list"
    case SetValueNode(p, _) => p + "set"
    case MapValueNode(p, _) => p + "map"
    case OtherValueNode(t) => t
  }

  predicate EndsWith(s: string, suffix: string) {
    |suffix| <= |s| && s[|s| - |suffix|..] == suffix
  }

  /**
   * A node whose constructor is the only reading of its discriminator: the
   * discriminator is lower case, and an `OtherValueNode` is neither `literal`
   * nor a container tag.
   */
  predicate CanonicalValue(node: ValueNode) {
    && Lower(ValueTag(node)) == ValueTag(node)
    && (node.OtherValueNode? ==>
          node.tag != "literal" && !EndsWith(node.tag, "list") && !EndsWith(node.tag, "set") && !EndsWith(node.tag, "map"))
  }

  /** Two container tags that end differently are different. */
  lemma SuffixesDiffer(p: string, q: string, a: string, b: string)
    requires a in {"list", "set", "map"} && b in {"list", "set", "map"}
    ensures p + a == q + b <==> p == q && a == b
  {
    if p + a == q + b {
      var w := p + a;
      assert w[|w| - 1] == a[|a| - 1] && w[|w| - 1] == b[|b| - 1];
      assert w[|w| - 2] == a[|a| - 2] && w[|w| - 2] == b[|b| - 2];
      assert a == b;
      assert p == w[..|p|] && q == w[..|q|];
    }
  }

  lemma EndsWithTag(p: string, a: string)
    ensures EndsWith(p + a, a)
  {
    assert (p + a)[|p + a| - |a|..] == a;
  }

  /**
   * A non-literal canonical node resolves to an array exactly when its
   * discriminator is `prefix` followed by `list`, `set` or `map`.
   */
  lemma TagSelectsContainer(node: ValueNode, prefix: string)
    requires CanonicalValue(node) && !node.LiteralNode?
    ensures ResolveMixValue(node, prefix).JArr? <==>
              ValueTag(node) in {prefix + "list", prefix + "set", prefix + "map"}
  {
    match node
    case ListValueNode(p, _) =>
      SuffixesDiffer(p, prefix, "list", "list");
      SuffixesDiffer(p, prefix, "list", "set");
      SuffixesDiffer(p, prefix, "list", "map");
    case SetValueNode(p, _) =>
      SuffixesDiffer(p, prefix, "set", "list");
      SuffixesDiffer(p, prefix, "set", "set");
      SuffixesDiffer(p, prefix, "set", "map");
    case MapValueNode(p, _) =>
      SuffixesDiffer(p, prefix, "map", "list");
      SuffixesDiffer(p, prefix, "map", "set");
      SuffixesDiffer(p, prefix, "map", "map");
    case OtherValueNode(t) =>
      EndsWithTag(prefix, "list");
      EndsWithTag(prefix, "set");
      EndsWithTag(prefix, "map");
  }

  /**
   * The prefix only selects the outermost container: a nested container
   * spelled with a custom prefix is not resolved even when the caller passed
   * that prefix.
   */
  lemma PrefixNotPropagated(p: string, inner: ValueNode)
    requires p != DefaultPrefix
    ensures ResolveMixValue(ListValueNode(p, [ListValueNode(p, [inner])]), p) == JArr([JUndefined])
  {
    var r := ResolveMixValue(ListValueNode(p, [ListValueNode(p, [inner])]), p);
    assert r.items[0] == ResolveMixValue(ListValueNode(p, [inner]), DefaultPrefix);
  }

  /** Duplicate map keys are kept, one singleton object per entry, in entry order. */
  lemma DuplicateMapKeysKept(a: J, b: J)
    ensures ResolveMixValue(MapValueNode("const", [MapEntry(JStr("k"), LiteralNode(a)), MapEntry(JStr("k"), LiteralNode(b))]), "const")
         == JArr([JObj(map["k" := a]), JObj(map["k" := b])])
  {
    var es := [MapEntry(JStr("k"), LiteralNode(a)), MapEntry(JStr("k"), LiteralNode(b))];
    var r := ResolveMixValue(MapValueNode("const", es), "const");
    assert r.items[0] == JObj(map["k" := a]);
    assert r.items[1] == JObj(map["k" := b]);
  }

  /** The constant syntax of a value: arrays become `const` lists, everything else a literal. */
  function Quote(j: J): ValueNode
    decreases j
  {
    match j
    case JArr(items) => ListValueNode(DefaultPrefix, seq(|items|, i requires 0 <= i < |items| => Quote(items[i])))
    case _ => LiteralNode(j)
  }

  /** Resolving quoted syntax gives the value back, however deeply lists nest. */
  lemma {:induction false} QuoteRoundTrip(j: J)
    ensures ResolveMixValue(Quote(j), DefaultPrefix) == j
    decreases j
  {
    match j
    case JArr(items) =>
      var r := ResolveMixValue(Quote(j), DefaultPrefix);
      forall i | 0 <= i < |items|
        ensures r.items[i] == items[i]
      {
        QuoteRoundTrip(items[i]);
      }
      assert r.items == items;
    case _ =>
  }
}

=== FILE: def_union.dfy ===
/**
 * `resolveDefUnion`: Phase 1 (normalise typedef and union entries) followed
 * by Phase 2 (inline references in exceptions, structs and services), and
 * what the two phases guarantee about the store.
 */
module DefUnion {
  import opened Json
  import opened Kinds
  import opened Wrappers
  import opened Errors
  import opened DefinitionStore
  import opened NormalisePhase
  import opened InlinePhase
  import TypeDescriptor

  /** `resolveDefUnion(gen)`: both phases; Phase 2 resolves names in the Phase-1 store. */
  function ResolveDefUnion(store: Store, kinds: seq<Kind>, lib: Library, g: StructGenerator): (r: Result<Store, Fault>)
    ensures r.Err? ==> r.error == TypeError
    ensures r.Ok? ==> r.value.Keys == store.Keys
    ensures r.Ok? ==> forall k :: k in store && k !in {Typedef, Union, Exception, Struct, Service} ==> r.value[k] == store[k]
    ensures r.Ok? ==> NormaliseDefUnion(store, g).Ok?
                      && r.value[Typedef] == NormaliseDefUnion(store, g).value[Typedef]
                      && r.value[Union] == NormaliseDefUnion(store, g).value[Union]
    ensures NormaliseDefUnion(store, g).Ok? ==>
              var sc := Scope(NormaliseDefUnion(store, g).value, kinds);
              && (r.Err? <==> (|| Exception !in store || Struct !in store || Service !in store
                               || exists n :: n in store[Service] && ResolveServiceEntry(sc, lib, store[Service][n]).Err?))
              && (r.Ok? ==> r.value[Exception] == WalkEntries(sc, lib, store[Exception]))
              && (r.Ok? ==> r.value[Struct] == WalkEntries(sc, lib, store[Struct]))
              && (r.Ok? ==> Ok(r.value[Service]) == ResolveServices(sc, lib, store[Service]))
  {
    var s1 :- NormaliseDefUnion(store, g);
    InlineStore(Scope(s1, kinds), lib, s1)
  }

  /** Both phases keep the names stored under every kind. */
  lemma ResolveKeepsKeys(store: Store, kinds: seq<Kind>, lib: Library, g: StructGenerator, k: Kind)
    requires ResolveDefUnion(store, kinds, lib, g).Ok?
    ensures Names(ResolveDefUnion(store, kinds, lib, g).value, k).Keys == Names(store, k).Keys
  {
    var s1 := NormaliseDefUnion(store, g).value;
    var r := InlineStore(Scope(s1, kinds), lib, s1).value;
    assert r == ResolveDefUnion(store, kinds, lib, g).value;
    if k == Service {
      assert Ok(r[Service]) == ResolveServices(Scope(s1, kinds), lib, s1[Service]);
    }
  }

  // ---------------------------------------------------------------------
  // Which fields Phase 2 changes, and how

  /** The field `f` of entry `e` of kind `k` in a store. */
  function FieldOf(s: Store, k: Kind, e: string, f: string): J
    requires k in s && e in s[k] && s[k][e].JObj? && f in s[k][e].fields
  {
    s[k][e].fields[f]
  }

  /** With plain objects walked, each struct or exception field is stepped once. */
  lemma FieldStepped(s: Store, kinds: seq<Kind>, lib: Library, k: Kind, e: string, f: string)
    requires k == Struct || k == Exception
    requires InlineStore(Scope(s, kinds), lib, s).Ok?
    requires lib.isObject.plainObjects
    requires k in s && e in s[k] && s[k][e].JObj? && f in s[k][e].fields
    ensures var r := InlineStore(Scope(s, kinds), lib, s).value;
            k in r && e in r[k] && r[k][e].JObj? && f in r[k][e].fields
            && FieldOf(r, k, e, f) == Step(Scope(s, kinds), lib, FieldOf(s, k, e, f))
  {
    var r := InlineStore(Scope(s, kinds), lib, s).value;
    assert r[k][e] == Walk(Scope(s, kinds), lib, s[k][e]);
  }

  /**
   * A struct or exception field referring to a name the typedef kind
   * defines becomes the field merged with the typedef entry, typedef keys
   * winning; with typedef first in the order this holds even when a later
   * kind defines the same name.
   */
  lemma TypedefFieldInlined(s: Store, kinds: seq<Kind>, lib: Library, k: Kind, e: string, f: string)
    requires k == Struct || k == Exception
    requires InlineStore(Scope(s, kinds), lib, s).Ok?
    requires lib.isObject.plainObjects
    requires k in s && e in s[k] && s[k][e].JObj? && f in s[k][e].fields
    requires IsReference(FieldOf(s, k, e, f))
    requires |kinds| > 0 && kinds[0] == Typedef && Defines(s, Typedef, RefName(FieldOf(s, k, e, f)))
    ensures var field := FieldOf(s, k, e, f);
            var r := InlineStore(Scope(s, kinds), lib, s).value;
            FieldOf(r, k, e, f) == JObj(Extend(field.fields, s[Typedef][RefName(field)]))
  {
    var field := FieldOf(s, k, e, f);
    EarlierKindWins(s, kinds, RefName(field), 0);
    FieldStepped(s, kinds, lib, k, e, f);
  }

  /**
   * Fields that are not references, and references to anything but a
   * typedef or a union (struct, exception, enum, service, const, or no
   * definition at all), are left exactly as they are, nested content included.
   */
  lemma OtherFieldsUntouched(s: Store, kinds: seq<Kind>, lib: Library, k: Kind, e: string, f: string)
    requires k == Struct || k == Exception
    requires InlineStore(Scope(s, kinds), lib, s).Ok?
    requires k in s && e in s[k] && s[k][e].JObj? && f in s[k][e].fields
    requires !IsReference(FieldOf(s, k, e, f))
             || RefKind(Scope(s, kinds), FieldOf(s, k, e, f)) !in {Some(Typedef), Some(Union)}
    ensures FieldOf(InlineStore(Scope(s, kinds), lib, s).value, k, e, f) == FieldOf(s, k, e, f)
  {
    if lib.isObject.plainObjects {
      FieldStepped(s, kinds, lib, k, e, f);
    }
  }

  /** An entry `isObject` rejects (every entry, when plain objects are rejected) is not walked. */
  lemma NonObjectEntryUntouched(s: Store, kinds: seq<Kind>, lib: Library, k: Kind, e: string)
    requires k == Struct || k == Exception
    requires InlineStore(Scope(s, kinds), lib, s).Ok?
    requires k in s && e in s[k] && !IsObject(lib.isObject, s[k][e])
    ensures InlineStore(Scope(s, kinds), lib, s).value[k][e] == s[k][e]
  {
  }

  /**
   * A field referring to a union is never flattened when `isObject` accepts
   * plain objects: the walk descends into the field itself, which stays an
   * `identifier` reference to the same name.
   */
  lemma UnionReferenceNotFlattened(s: Store, kinds: seq<Kind>, lib: Library, k: Kind, e: string, f: string)
    requires k == Struct || k == Exception
    requires lib.isObject.plainObjects
    requires k in s && e in s[k] && s[k][e].JObj? && f in s[k][e].fields
    requires IsReference(FieldOf(s, k, e, f)) && RefKind(Scope(s, kinds), FieldOf(s, k, e, f)) == Some(Union)
    ensures InlineStore(Scope(s, kinds), lib, s).Ok? ==>
              var out := FieldOf(InlineStore(Scope(s, kinds), lib, s).value, k, e, f);
              IsReference(out) && RefName(out) == RefName(FieldOf(s, k, e, f))
              && out.fields.Keys == FieldOf(s, k, e, f).fields.Keys
  {
    if InlineStore(Scope(s, kinds), lib, s).Ok? {
      FieldStepped(s, kinds, lib, k, e, f);
      UnionStepWalks(Scope(s, kinds), lib, FieldOf(s, k, e, f));
    }
  }

  /** With plain objects accepted, stepping a union reference walks it and keeps it a reference. */
  lemma UnionStepWalks(sc: Scope, lib: Library, e: J)
    requires lib.isObject.plainObjects
    requires IsReference(e) && RefKind(sc, e) == Some(Union)
    ensures var out := Step(sc, lib, e);
            IsReference(out) && RefName(out) == RefName(e) && out.fields.Keys == e.fields.Keys
  {
    assert Step(sc, lib, e) == Walk(sc, lib, e);
    WalkKeepsReference(sc, lib, e);
  }

  /**
   * A field referring to a union that `isObject` rejects is flattened: it
   * keeps its keys, gains style `union`, and its `valueType` becomes the
   * joined member text.
   */
  lemma UnionReferenceFlattened(sc: Scope, lib: Library, e: J)
    requires IsReference(e) && RefKind(sc, e) == Some(Union) && !IsObject(lib.isObject, e)
    ensures var r := Step(sc, lib, e);
            && r.JObj? && r.fields.Keys == e.fields.Keys + {"valueStyle", "valueType"}
            && r.fields["valueStyle"] == JStr("union") && r.fields["valueType"].JStr?
            && forall k :: k in e.fields && k != "valueStyle" && k != "valueType" ==> r.fields[k] == e.fields[k]
  {
    assert Defines(sc.store, Union, RefName(e));
  }

  /** Walking a reference keeps its style and the name it refers to. */
  lemma WalkKeepsReference(sc: Scope, lib: Library, e: J)
    requires IsReference(e)
    ensures IsReference(Walk(sc, lib, e)) && RefName(Walk(sc, lib, e)) == RefName(e)
  {
    var w := Walk(sc, lib, e);
    if IsObject(lib.isObject, e) {
      assert w.fields["valueStyle"] == Step(sc, lib, e.fields["valueStyle"]);
      if "valueType" in e.fields {
        var v := e.fields["valueType"];
        assert w.fields["valueType"] == Step(sc, lib, v);
        assert Step(sc, lib, v) == v || (v.JObj? && Step(sc, lib, v).JObj?);
      }
    }
  }

  /** A descriptor made by the type resolver for an identifier is exactly what Phase 2 treats as a reference. */
  lemma IdentifierDescriptorIsReference(name: string)
    ensures IsReference(TypeDescriptor.ToJson(TypeDescriptor.IdentDesc(name)))
    ensures RefName(TypeDescriptor.ToJson(TypeDescriptor.IdentDesc(name))) == name
  {
  }

  // ---------------------------------------------------------------------
  // The walk is idempotent unless typedefs forward references

  /**
   * The typedef entry `t` stored under `n` ends a reference merged with it:
   * the merge leaves no reference, or a reference to `n` itself, or to a name
   * that resolves to neither a typedef nor a union (a struct, enum, exception,
   * service, const, or nothing).
   */
  predicate SettledTarget(sc: Scope, n: string, t: J) {
    || !t.JObj?
    || ("valueStyle" in t.fields && t.fields["valueStyle"] != JStr("identifier"))
    || "valueType" !in t.fields
    || PropertyKey(t.fields["valueType"]) == n
    || FindKind(sc.store, sc.kinds, PropertyKey(t.fields["valueType"])) !in {Some(Typedef), Some(Union)}
  }

  /** No typedef entry forwards a reference to another typedef or to a union. */
  ghost predicate Settled(sc: Scope) {
    forall n :: n in Names(sc.store, Typedef) ==> SettledTarget(sc, n, Names(sc.store, Typedef)[n])
  }

  /** Merging the same typedef entry twice is merging it once. */
  lemma ExtendTwice(a: map<string, J>, t: J)
    ensures Extend(Extend(a, t), t) == Extend(a, t)
  {
  }

  /** A reference merged with a settled typedef entry is not changed by another step. */
  lemma TypedefStepSettles(sc: Scope, lib: Library, e: J)
    requires Settled(sc)
    requires IsReference(e) && RefKind(sc, e) == Some(Typedef)
    ensures Step(sc, lib, Step(sc, lib, e)) == Step(sc, lib, e)
  {
    var n := RefName(e);
    assert Defines(sc.store, Typedef, n);
    var t := Names(sc.store, Typedef)[n];
    var r := Step(sc, lib, e);
    assert r == JObj(Extend(e.fields, t));
    if t.JObj? && IsReference(r) {
      if "valueType" !in t.fields || PropertyKey(t.fields["valueType"]) == n {
        assert RefName(r) == n;
        ExtendTwice(e.fields, t);
      } else if !("valueStyle" in t.fields && t.fields["valueStyle"] != JStr("identifier")) {
        assert RefName(r) == PropertyKey(t.fields["valueType"]);
      }
    }
  }

  lemma {:induction false} StepIdempotent(sc: Scope, lib: Library, e: J)
    requires Settled(sc)
    ensures Step(sc, lib, Step(sc, lib, e)) == Step(sc, lib, e)
    decreases e, 1
  {
    if IsReference(e) {
      match RefKind(sc, e)
      case Some(Typedef) =>
        TypedefStepSettles(sc, lib, e);
      case Some(Union) =>
        if IsObject(lib.isObject, e) {
          WalkKeepsReference(sc, lib, e);
          WalkIdempotent(sc, lib, e);
        }
      case _ =>
    }
  }

  lemma {:induction false} WalkIdempotent(sc: Scope, lib: Library, j: J)
    requires Settled(sc)
    ensures Walk(sc, lib, Walk(sc, lib, j)) == Walk(sc, lib, j)
    decreases j, 0
  {
    if IsObject(lib.isObject, j) {
      match j
      case JObj(m) =>
        var w := Walk(sc, lib, j);
        forall k | k in m
          ensures Step(sc, lib, w.fields[k]) == w.fields[k]
        {
          StepIdempotent(sc, lib, m[k]);
        }
        assert Walk(sc, lib, w).fields == w.fields;
      case JArr(s) =>
        var w := Walk(sc, lib, j);
        forall i | 0 <= i < |s|
          ensures Step(sc, lib, w.items[i]) == w.items[i]
        {
          StepIdempotent(sc, lib, s[i]);
        }
        assert Walk(sc, lib, w).items == w.items;
    }
  }

  lemma WalkMethodIdempotent(sc: Scope, lib: Library, m: J)
    requires Settled(sc)
    ensures WalkMethod(sc, lib, WalkMethod(sc, lib, m)) == WalkMethod(sc, lib, m)
  {
    if m.JObj? {
      var w := WalkMethod(sc, lib, m);
      forall k | k in m.fields && k in MethodSlots
        ensures Walk(sc, lib, w.fields[k]) == w.fields[k]
      {
        WalkIdempotent(sc, lib, m.fields[k]);
      }
      assert WalkMethod(sc, lib, w).fields == w.fields;
    }
  }

  lemma WalkMethodsIdempotent(sc: Scope, lib: Library, svc: J)
    requires Settled(sc)
    requires WalkMethods(sc, lib, svc).Ok?
    ensures WalkMethods(sc, lib, WalkMethods(sc, lib, svc).value) == WalkMethods(sc, lib, svc)
  {
    var w := WalkMethods(sc, lib, svc).value;
    match svc
    case JObj(ms) =>
      forall k | k in ms
        ensures WalkMethod(sc, lib, w.fields[k]) == w.fields[k] && !Nullish(w.fields[k])
      {
        WalkMethodIdempotent(sc, lib, ms[k]);
      }
      assert WalkMethods(sc, lib, w).value.fields == w.fields;
    case JArr(ms) =>
      forall i | 0 <= i < |ms|
        ensures WalkMethod(sc, lib, w.items[i]) == w.items[i] && !Nullish(w.items[i])
      {
        WalkMethodIdempotent(sc, lib, ms[i]);
      }
      assert WalkMethods(sc, lib, w).value.items == w.items;
    case _ =>
  }

  /**
   * The service loop repeats the method walk once per key of the service
   * entry; with settled typedefs any number of rounds (at least one) is the
   * same as a single walk.
   */
  lemma {:induction false} RepeatedMethodWalkIsOneWalk(sc: Scope, lib: Library, svc: J, n: nat)
    requires Settled(sc) && n >= 1
    ensures WalkMethodsTimes(sc, lib, svc, n) == WalkMethods(sc, lib, svc)
    decreases n
  {
    match WalkMethods(sc, lib, svc)
    case Err(_) =>
    case Ok(v) =>
      if n > 1 {
        WalkMethodsIdempotent(sc, lib, svc);
        RepeatedMethodWalkIsOneWalk(sc, lib, v, n - 1);
      }
  }

  /** With settled typedefs, one service entry has each slot of each method walked exactly once. */
  lemma EntrySlotWalkedOnce(sc: Scope, lib: Library, entry: J, m: string, slot: string)
    requires Settled(sc)
    requires ResolveServiceEntry(sc, lib, entry).Ok?
    requires entry.JObj? && "service" in entry.fields && entry.fields["service"].JObj?
    requires m in entry.fields["service"].fields && entry.fields["service"].fields[m].JObj?
    requires slot in MethodSlots && slot in entry.fields["service"].fields[m].fields
    ensures var out := ResolveServiceEntry(sc, lib, entry).value;
            out.JObj? && "service" in out.fields && out.fields["service"].JObj?
            && m in out.fields["service"].fields && out.fields["service"].fields[m].JObj?
            && slot in out.fields["service"].fields[m].fields
            && out.fields["service"].fields[m].fields[slot] == Walk(sc, lib, entry.fields["service"].fields[m].fields[slot])
  {
    var svc := entry.fields["service"];
    RepeatedMethodWalkIsOneWalk(sc, lib, svc, OwnKeyCount(entry));
    var w := WalkMethods(sc, lib, svc).value;
    assert w.fields[m] == WalkMethod(sc, lib, svc.fields[m]);
  }

  /**
   * With settled typedefs, every `returns`, `arguments` or `throws` slot of
   * every method of a service ends up walked exactly once.
   */
  lemma ServiceSlotWalkedOnce(s: Store, kinds: seq<Kind>, lib: Library, e: string, m: string, slot: string)
    requires Settled(Scope(s, kinds))
    requires InlineStore(Scope(s, kinds), lib, s).Ok?
    requires Service in s && e in s[Service] && s[Service][e].JObj?
    requires "service" in s[Service][e].fields && s[Service][e].fields["service"].JObj?
    requires m in s[Service][e].fields["service"].fields
    requires s[Service][e].fields["service"].fields[m].JObj?
    requires slot in MethodSlots && slot in s[Service][e].fields["service"].fields[m].fields
    ensures var out := InlineStore(Scope(s, kinds), lib, s).value[Service][e];
            out.JObj? && "service" in out.fields && out.fields["service"].JObj?
            && m in out.fields["service"].fields && out.fields["service"].fields[m].JObj?
            && slot in out.fields["service"].fields[m].fields
            && out.fields["service"].fields[m].fields[slot]
               == Walk(Scope(s, kinds), lib, s[Service][e].fields["service"].fields[m].fields[slot])
  {
    var sc := Scope(s, kinds);
    var r := InlineStore(sc, lib, s).value;
    assert Ok(r[Service][e]) == ResolveServiceEntry(sc, lib, s[Service][e]);
    EntrySlotWalkedOnce(sc, lib, s[Service][e], m, slot);
  }

  // ---------------------------------------------------------------------
  // Phase 2 does not disturb what it looks up, so running it again is a no-op

  /** Two scopes in which every name resolves alike and the typedef and union entries agree. */
  ghost predicate SameResolution(a: Scope, b: Scope) {
    && a.kinds == b.kinds
    && Names(a.store, Typedef) == Names(b.store, Typedef)
    && Names(a.store, Union) == Names(b.store, Union)
    && forall n :: FindKind(a.store, a.kinds, n) == FindKind(b.store, b.kinds, n)
  }

  lemma {:induction false} StepCongruent(a: Scope, b: Scope, lib: Library, e: J)
    requires SameResolution(a, b)
    ensures Step(a, lib, e) == Step(b, lib, e)
    decreases e, 1
  {
    if IsReference(e) && RefKind(a, e) == Some(Union) && IsObject(lib.isObject, e) {
      WalkCongruent(a, b, lib, e);
    }
  }

  lemma {:induction false} WalkCongruent(a: Scope, b: Scope, lib: Library, j: J)
    requires SameResolution(a, b)
    ensures Walk(a, lib, j) == Walk(b, lib, j)
    decreases j, 0
  {
    if IsObject(lib.isObject, j) {
      match j
      case JObj(m) =>
        forall k | k in m
          ensures Step(a, lib, m[k]) == Step(b, lib, m[k])
        {
          StepCongruent(a, b, lib, m[k]);
        }
        assert Walk(a, lib, j).fields == Walk(b, lib, j).fields;
      case JArr(s) =>
        forall i | 0 <= i < |s|
          ensures Step(a, lib, s[i]) == Step(b, lib, s[i])
        {
          StepCongruent(a, b, lib, s[i]);
        }
        assert Walk(a, lib, j).items == Walk(b, lib, j).items;
    }
  }

  lemma MethodCongruent(a: Scope, b: Scope, lib: Library, m: J)
    requires SameResolution(a, b)
    ensures WalkMethod(a, lib, m) == WalkMethod(b, lib, m)
  {
    if m.JObj? {
      forall k | k in m.fields
        ensures Walk(a, lib, m.fields[k]) == Walk(b, lib, m.fields[k])
      {
        WalkCongruent(a, b, lib, m.fields[k]);
      }
      assert WalkMethod(a, lib, m).fields == WalkMethod(b, lib, m).fields;
    }
  }

  lemma MethodsCongruent(a: Scope, b: Scope, lib: Library, svc: J)
    requires SameResolution(a, b)
    ensures WalkMethods(a, lib, svc) == WalkMethods(b, lib, svc)
  {
    match svc
    case JObj(ms) =>
      forall k | k in ms
        ensures WalkMethod(a, lib, ms[k]) == WalkMethod(b, lib, ms[k])
      {
        MethodCongruent(a, b, lib, ms[k]);
      }
      assert (map k | k in ms :: WalkMethod(a, lib, ms[k])) == (map k | k in ms :: WalkMethod(b, lib, ms[k]));
    case JArr(ms) =>
      forall i | 0 <= i < |ms|
        ensures WalkMethod(a, lib, ms[i]) == WalkMethod(b, lib, ms[i])
      {
        MethodCongruent(a, b, lib, ms[i]);
      }
      assert seq(|ms|, i requires 0 <= i < |ms| => WalkMethod(a, lib, ms[i]))
          == seq(|ms|, i requires 0 <= i < |ms| => WalkMethod(b, lib, ms[i]));
    case _ =>
  }

  lemma {:induction false} MethodsTimesCongruent(a: Scope, b: Scope, lib: Library, svc: J, n: nat)
    requires SameResolution(a, b)
    ensures WalkMethodsTimes(a, lib, svc, n) == WalkMethodsTimes(b, lib, svc, n)
    decreases n
  {
    if n > 0 {
      MethodsCongruent(a, b, lib, svc);
      if WalkMethods(a, lib, svc).Ok? {
        MethodsTimesCongruent(a, b, lib, WalkMethods(a, lib, svc).value, n - 1);
      }
    }
  }

  lemma ServiceEntryCongruent(a: Scope, b: Scope, lib: Library, entry: J)
    requires SameResolution(a, b)
    ensures ResolveServiceEntry(a, lib, entry) == ResolveServiceEntry(b, lib, entry)
  {
    if entry.JObj? && "service" in entry.fields {
      MethodsTimesCongruent(a, b, lib, entry.fields["service"], OwnKeyCount(entry));
    }
  }

  lemma ServicesCongruent(a: Scope, b: Scope, lib: Library, es: Entries)
    requires SameResolution(a, b)
    ensures ResolveServices(a, lib, es) == ResolveServices(b, lib, es)
  {
    forall n | n in es
      ensures ResolveServiceEntry(a, lib, es[n]) == ResolveServiceEntry(b, lib, es[n])
    {
      ServiceEntryCongruent(a, b, lib, es[n]);
    }
    if ResolveServices(a, lib, es).Ok? {
      assert (map n | n in es :: ResolveServiceEntry(a, lib, es[n]).value)
          == (map n | n in es :: ResolveServiceEntry(b, lib, es[n]).value);
    }
  }

  lemma EntriesCongruent(a: Scope, b: Scope, lib: Library, es: Entries)
    requires SameResolution(a, b)
    ensures WalkEntries(a, lib, es) == WalkEntries(b, lib, es)
  {
    forall n | n in es
      ensures Walk(a, lib, es[n]) == Walk(b, lib, es[n])
    {
      WalkCongruent(a, b, lib, es[n]);
    }
  }

  lemma InlineCongruent(a: Scope, b: Scope, lib: Library, s: Store)
    requires SameResolution(a, b)
    ensures InlineStore(a, lib, s) == InlineStore(b, lib, s)
  {
    if Exception in s && Struct in s && Service in s {
      EntriesCongruent(a, b, lib, s[Exception]);
      EntriesCongruent(a, b, lib, s[Struct]);
      ServicesCongruent(a, b, lib, s[Service]);
    }
  }

  /** Walking a value never changes its truthiness. */
  lemma WalkKeepsTruthy(sc: Scope, lib: Library, j: J)
    ensures Truthy(Walk(sc, lib, j)) == Truthy(j)
  {
  }

  /** Resolving a service entry never changes its truthiness. */
  lemma ServiceEntryKeepsTruthy(sc: Scope, lib: Library, entry: J)
    requires ResolveServiceEntry(sc, lib, entry).Ok?
    ensures Truthy(ResolveServiceEntry(sc, lib, entry).value) == Truthy(entry)
  {
  }

  /** Resolving the service kind never changes an entry's truthiness. */
  lemma ServicesKeepTruthy(sc: Scope, lib: Library, es: Entries, n: string)
    requires ResolveServices(sc, lib, es).Ok? && n in es
    ensures n in ResolveServices(sc, lib, es).value
    ensures Truthy(ResolveServices(sc, lib, es).value[n]) == Truthy(es[n])
  {
    ServiceEntryKeepsTruthy(sc, lib, es[n]);
  }

  /** Phase 2 never changes whether a kind defines a name. */
  lemma InlineKeepsDefines(s: Store, kinds: seq<Kind>, lib: Library, k: Kind, n: string)
    requires InlineStore(Scope(s, kinds), lib, s).Ok?
    ensures Defines(s, k, n) == Defines(InlineStore(Scope(s, kinds), lib, s).value, k, n)
  {
    if k == Service && n in s[Service] {
      ServicesKeepTruthy(Scope(s, kinds), lib, s[Service], n);
    }
  }

  /**
   * Phase 2 keeps every lookup it depends on: each name resolves to the same
   * kind afterwards, and the typedef and union entries are untouched. (This
   * is why resolving against the Phase-1 store matches the in-place loop.)
   */
  lemma InlineKeepsResolution(s: Store, kinds: seq<Kind>, lib: Library)
    requires InlineStore(Scope(s, kinds), lib, s).Ok?
    ensures SameResolution(Scope(s, kinds), Scope(InlineStore(Scope(s, kinds), lib, s).value, kinds))
  {
    var r := InlineStore(Scope(s, kinds), lib, s).value;
    forall n: string
      ensures FindKind(s, kinds, n) == FindKind(r, kinds, n)
    {
      forall k | k in kinds
        ensures Defines(s, k, n) == Defines(r, k, n)
      {
        InlineKeepsDefines(s, kinds, lib, k, n);
      }
      FindKindRespectsDefines(s, r, kinds, n);
    }
  }


  lemma ServiceEntryIdempotent(sc: Scope, lib: Library, entry: J)
    requires Settled(sc)
    requires ResolveServiceEntry(sc, lib, entry).Ok?
    ensures ResolveServiceEntry(sc, lib, ResolveServiceEntry(sc, lib, entry).value) == ResolveServiceEntry(sc, lib, entry)
  {
    var out := ResolveServiceEntry(sc, lib, entry).value;
    if OwnKeyCount(entry) > 0 {
      var svc := entry.fields["service"];
      RepeatedMethodWalkIsOneWalk(sc, lib, svc, OwnKeyCount(entry));
      var v := out.fields["service"];
      assert OwnKeyCount(out) == OwnKeyCount(entry);
      RepeatedMethodWalkIsOneWalk(sc, lib, v, OwnKeyCount(out));
      WalkMethodsIdempotent(sc, lib, svc);
      assert out.fields["service" := v] == out.fields;
    }
  }

  lemma EntriesIdempotent(sc: Scope, lib: Library, es: Entries)
    requires Settled(sc)
    ensures WalkEntries(sc, lib, WalkEntries(sc, lib, es)) == WalkEntries(sc, lib, es)
  {
    var w := WalkEntries(sc, lib, es);
    forall n | n in es
      ensures Walk(sc, lib, w[n]) == w[n]
    {
      WalkIdempotent(sc, lib, es[n]);
    }
  }

  /** Service entries that resolve to themselves resolve, as a kind, to themselves. */
  lemma ServicesFixpoint(sc: Scope, lib: Library, es: Entries)
    requires forall n :: n in es ==> ResolveServiceEntry(sc, lib, es[n]) == Ok(es[n])
    ensures ResolveServices(sc, lib, es) == Ok(es)
  {
    assert (map n | n in es :: ResolveServiceEntry(sc, lib, es[n]).value) == es;
  }

  lemma ServicesIdempotent(sc: Scope, lib: Library, es: Entries)
    requires Settled(sc)
    requires ResolveServices(sc, lib, es).Ok?
    ensures ResolveServices(sc, lib, ResolveServices(sc, lib, es).value) == ResolveServices(sc, lib, es)
  {
    var w := ResolveServices(sc, lib, es).value;
    forall n | n in w
      ensures ResolveServiceEntry(sc, lib, w[n]) == Ok(w[n])
    {
      assert Ok(w[n]) == ResolveServiceEntry(sc, lib, es[n]);
      ServiceEntryIdempotent(sc, lib, es[n]);
    }
    ServicesFixpoint(sc, lib, w);
  }

  /**
   * Running Phase 2 a second time on its own output changes nothing, as long
   * as typedef entries are settled.
   */
  lemma InlineIdempotent(s: Store, kinds: seq<Kind>, lib: Library)
    requires Settled(Scope(s, kinds))
    requires InlineStore(Scope(s, kinds), lib, s).Ok?
    ensures var r := InlineStore(Scope(s, kinds), lib, s).value;
            InlineStore(Scope(r, kinds), lib, r) == Ok(r)
  {
    var sc := Scope(s, kinds);
    var r := InlineStore(sc, lib, s).value;
    InlineKeepsResolution(s, kinds, lib);
    InlineCongruent(Scope(r, kinds), sc, lib, r);
    EntriesIdempotent(sc, lib, s[Exception]);
    EntriesIdempotent(sc, lib, s[Struct]);
    ServicesIdempotent(sc, lib, s[Service]);
    assert r[Exception := r[Exception]][Struct := r[Struct]][Service := r[Service]] == r;
  }

  /** `typedef S T` with `S` a struct is settled: the merge leaves a reference to the struct. */
  lemma StructAliasSettled(shape: map<string, J>)
    ensures Settled(Scope(map[Typedef := map["T" := Ref("S")], Struct := map["S" := JObj(shape)]], [Typedef, Struct]))
  {
    var sc := Scope(map[Typedef := map["T" := Ref("S")], Struct := map["S" := JObj(shape)]], [Typedef, Struct]);
    assert PropertyKey(JStr("S")) == "S";
    assert FindKind(sc.store, sc.kinds, "S") == Some(Struct);
  }

  // ---------------------------------------------------------------------
  // Without settled typedefs the service repetition is observable

  /** A field `{valueStyle: 'identifier', valueType: name}`. */
  function Ref(name: string): J {
    JObj(map["valueStyle" := JStr("identifier"), "valueType" := JStr(name)])
  }

  const I32: J := JObj(map["valueStyle" := JStr("basetype"), "valueType" := JStr("i32")])

  /** `typedef B A` after normalisation still refers to `B`; `typedef i32 B` is settled. */
  const ChainScope: Scope := Scope(map[Typedef := map["A" := Ref("B"), "B" := I32]], [Typedef])

  /** `isObject` as it behaves on plain objects and arrays in the usual utility libraries. */
  const PlainLibrary: Library := Library(ObjectTest(true, false), j => "", "|", m => [])

  /** A link `name -> target` of a typedef-only scope is one step. */
  lemma TypedefLink(td: Entries, name: string, target: J)
    requires name in td && td[name] == target && target.JObj?
    requires target.fields.Keys == {"valueStyle", "valueType"}
    ensures Step(Scope(map[Typedef := td], [Typedef]), PlainLibrary, Ref(name)) == target
  {
    var sc := Scope(map[Typedef := td], [Typedef]);
    assert Defines(sc.store, Typedef, name);
    assert RefName(Ref(name)) == name;
    assert RefKind(sc, Ref(name)) == Some(Typedef);
    assert Extend(Ref(name).fields, target) == target.fields;
  }

  /** Each link of the chain is one step: `A` becomes `B`, `B` becomes `i32`. */
  lemma ChainSteps()
    ensures Step(ChainScope, PlainLibrary, Ref("A")) == Ref("B")
    ensures Step(ChainScope, PlainLibrary, Ref("B")) == I32
  {
    var td := map["A" := Ref("B"), "B" := I32];
    assert Ref("B").fields.Keys == {"valueStyle", "valueType"};
    assert I32.fields.Keys == {"valueStyle", "valueType"};
    TypedefLink(td, "A", Ref("B"));
    TypedefLink(td, "B", I32);
  }

  lemma WalkSingleField(sc: Scope, lib: Library, k: string, v: J)
    requires lib.isObject.plainObjects
    ensures Walk(sc, lib, JObj(map[k := v])) == JObj(map[k := Step(sc, lib, v)])
  {
    assert Walk(sc, lib, JObj(map[k := v])).fields == map[k := Step(sc, lib, v)];
  }

  lemma WalkSingleReturns(sc: Scope, lib: Library, v: J)
    ensures WalkMethod(sc, lib, JObj(map["returns" := v])) == JObj(map["returns" := Walk(sc, lib, v)])
  {
    assert WalkMethod(sc, lib, JObj(map["returns" := v])).fields == map["returns" := Walk(sc, lib, v)];
  }

  lemma WalkSingleMethod(sc: Scope, lib: Library, name: string, m: J)
    requires !Nullish(m)
    ensures WalkMethods(sc, lib, JObj(map[name := m])) == Ok(JObj(map[name := WalkMethod(sc, lib, m)]))
  {
    var ms := map[name := m];
    assert forall k :: k in ms ==> k == name;
    assert !exists k :: k in ms && Nullish(ms[k]);
    assert WalkMethods(sc, lib, JObj(ms)).value.fields == map[name := WalkMethod(sc, lib, m)];
  }

  /** One walk of `{x: A}` reaches `{x: B}`; a second walk reaches `{x: i32}`. */
  lemma ChainWalks()
    ensures Walk(ChainScope, PlainLibrary, JObj(map["x" := Ref("A")])) == JObj(map["x" := Ref("B")])
    ensures Walk(ChainScope, PlainLibrary, JObj(map["x" := Ref("B")])) == JObj(map["x" := I32])
  {
    ChainSteps();
    WalkSingleField(ChainScope, PlainLibrary, "x", Ref("A"));
    WalkSingleField(ChainScope, PlainLibrary, "x", Ref("B"));
  }

  /** The same two rounds, seen through the method walk of a service. */
  lemma ChainMethodRounds()
    ensures WalkMethods(ChainScope, PlainLibrary, JObj(map["m" := JObj(map["returns" := JObj(map["x" := Ref("A")])])]))
            == Ok(JObj(map["m" := JObj(map["returns" := JObj(map["x" := Ref("B")])])]))
    ensures WalkMethods(ChainScope, PlainLibrary, JObj(map["m" := JObj(map["returns" := JObj(map["x" := Ref("B")])])]))
            == Ok(JObj(map["m" := JObj(map["returns" := JObj(map["x" := I32])])]))
  {
    ChainWalks();
    var sc, lib := ChainScope, PlainLibrary;
    WalkSingleReturns(sc, lib, JObj(map["x" := Ref("A")]));
    WalkSingleReturns(sc, lib, JObj(map["x" := Ref("B")]));
    WalkSingleMethod(sc, lib, "m", JObj(map["returns" := JObj(map["x" := Ref("A")])]));
    WalkSingleMethod(sc, lib, "m", JObj(map["returns" := JObj(map["x" := Ref("B")])]));
  }

  lemma TwoRounds(sc: Scope, lib: Library, a: J, b: J, c: J)
    requires WalkMethods(sc, lib, a) == Ok(b) && WalkMethods(sc, lib, b) == Ok(c)
    ensures WalkMethodsTimes(sc, lib, a, 2) == Ok(c)
  {
    assert WalkMethodsTimes(sc, lib, b, 1) == Ok(c);
  }

  lemma TwoKeyServiceEntry(sc: Scope, lib: Library, name: J, svc: J, v: J)
    requires WalkMethodsTimes(sc, lib, svc, 2) == Ok(v)
    ensures ResolveServiceEntry(sc, lib, JObj(map["name" := name, "service" := svc]))
            == Ok(JObj(map["name" := name, "service" := v]))
  {
    var f := map["name" := name, "service" := svc];
    assert f.Keys == {"name", "service"};
    assert OwnKeyCount(JObj(f)) == 2;
    assert f["service" := v] == map["name" := name, "service" := v];
  }

  lemma WalkSingleEntry(sc: Scope, lib: Library, name: string, v: J)
    ensures WalkEntries(sc, lib, map[name := v]) == map[name := Walk(sc, lib, v)]
  {
  }

  /** A struct entry is walked once: its field of type `A` ends at `B`. */
  lemma ChainInStruct()
    ensures WalkEntries(ChainScope, PlainLibrary, map["S" := JObj(map["x" := Ref("A")])])
            == map["S" := JObj(map["x" := Ref("B")])]
  {
    ChainWalks();
    WalkSingleEntry(ChainScope, PlainLibrary, "S", JObj(map["x" := Ref("A")]));
  }

  /** A service entry with two keys walks its methods twice: the same field ends at `i32`. */
  lemma ChainInService()
    ensures ResolveServiceEntry(ChainScope, PlainLibrary,
              JObj(map["name" := JStr("Svc"),
                       "service" := JObj(map["m" := JObj(map["returns" := JObj(map["x" := Ref("A")])])])]))
            == Ok(JObj(map["name" := JStr("Svc"),
                           "service" := JObj(map["m" := JObj(map["returns" := JObj(map["x" := I32])])])]))
  {
    ChainMethodRounds();
    TwoRounds(ChainScope, PlainLibrary,
              JObj(map["m" := JObj(map["returns" := JObj(map["x" := Ref("A")])])]),
              JObj(map["m" := JObj(map["returns" := JObj(map["x" := Ref("B")])])]),
              JObj(map["m" := JObj(map["returns" := JObj(map["x" := I32])])]));
    TwoKeyServiceEntry(ChainScope, PlainLibrary, JStr("Svc"),
                       JObj(map["m" := JObj(map["returns" := JObj(map["x" := Ref("A")])])]),
                       JObj(map["m" := JObj(map["returns" := JObj(map["x" := I32])])]));
  }
}

=== FILE: dispatcher.dfy ===
/**
 * `createJSON` / `gen`: a name is looked up by kind, and the kind's leaf
 * generator renders the stored definition. The leaf generators are opaque
 * parameters; a generator may itself fail (through its own nested `gen` calls).
 */
module Dispatcher {
  import opened Json
  import opened Kinds
  import opened Wrappers
  import opened Errors
  import opened DefinitionStore

  /** A leaf generator: `(name, syntax) -> JSON`, possibly raising. */
  type Generator = (string, J) -> Result<J, Fault>

  /** `gen(name)`. */
  function Gen(store: Store, kinds: seq<Kind>, generators: map<Kind, Generator>, name: string): (r: Result<J, Fault>)
    ensures (forall i :: 0 <= i < |kinds| ==> !Defines(store, kinds[i], name)) ==> r == Err(NotFound(name))
    ensures forall i :: 0 <= i < |kinds| && Defines(store, kinds[i], name)
                        && (forall j :: 0 <= j < i ==> !Defines(store, kinds[j], name)) ==>
              r == (if kinds[i] in generators then generators[kinds[i]](name, store[kinds[i]][name])
                    else Err(MissingGenerator(kinds[i])))
  {
    match FindKind(store, kinds, name)
    case None => Err(NotFound(name))
    case Some(k) =>
      if k in generators then generators[k](name, store[k][name]) else Err(MissingGenerator(k))
  }

  /** The dispatcher only raises its own two errors on a lookup miss or a missing generator. */
  lemma GenDispatchFailures(store: Store, kinds: seq<Kind>, generators: map<Kind, Generator>, name: string)
    requires forall k :: k in generators ==> forall n, s :: generators[k](n, s).Ok?
    ensures Gen(store, kinds, generators, name).Err? <==>
              FindKind(store, kinds, name).None? || FindKind(store, kinds, name).value !in generators
    ensures Gen(store, kinds, generators, name) == Err(NotFound(name)) <==> FindKind(store, kinds, name).None?
  {
  }
}

=== FILE: errors.dfy ===
/** The errors the tool raises, as tagged values instead of message strings. */
module Errors {
  import opened Kinds

  datatype Fault =
    /** The parser's syntax tree had no definitions array (or parsing itself failed). */
    | SyntaxError
    /** A definition's lower-cased kind tag has no leaf parser. */
    | UnknownLeafKind(tag: string)
    /** `gen(name)` found the name under no kind. */
    | NotFound(name: string)
    /** `gen(name)` found a kind that has no generator. */
    | MissingGenerator(kind: Kind)
    /** A JavaScript TypeError the code does not catch (`Object.keys(undefined)`, writing to a string). */
    | TypeError
}

=== FILE: inline.dfy ===
/**
 * Phase 2 of `resolveDefUnion`: the walk over the fields of every exception
 * and struct entry, and over the `returns`, `arguments` and `throws` of every
 * service method, that merges typedef targets into the fields referring to
 * them and handles fields referring to unions.
 */
module InlinePhase {
  import opened Json
  import opened Kinds
  import opened Wrappers
  import opened Errors
  import opened DefinitionStore

  /** Which runtime kinds `Utils.isObject` accepts; it never accepts null or undefined. */
  datatype ObjectTest = ObjectTest(plainObjects: bool, arrays: bool)

  /**
   * The library pieces Phase 2 consults: the `isObject` test, `JSON.stringify`,
   * the `Icon['or']` separator, and the order `Object.keys` lists a plain
   * object's keys in (a map does not record insertion order).
   */
  datatype Library = Library(
    isObject: ObjectTest,
    stringify: J -> string,
    separator: string,
    keyOrder: map<string, J> -> seq<string>)

  /** The store the walk resolves names against, with the declared kind order. */
  datatype Scope = Scope(store: Store, kinds: seq<Kind>)

  predicate IsObject(t: ObjectTest, j: J) {
    (j.JObj? && t.plainObjects) || (j.JArr? && t.arrays)
  }

  /** `ele && ele.valueStyle === 'identifier'`: a field that refers to a definition by name. */
  predicate IsReference(e: J) {
    e.JObj? && Member(e, "valueStyle") == JStr("identifier")
  }

  /** The name a reference points at: its `valueType`, coerced to a property key. */
  function RefName(e: J): string {
    PropertyKey(Member(e, "valueType"))
  }

  /** `findThriftType(ele.valueType)`. */
  function RefKind(sc: Scope, e: J): Option<Kind> {
    FindKind(sc.store, sc.kinds, RefName(e))
  }

  /** One union member as display text: strings as they are, anything else stringified. */
  function MemberText(lib: Library, j: J): string {
    if j.JStr? then j.s else lib.stringify(j)
  }

  /** The member texts of a plain object, in the given key order. */
  function FieldTexts(lib: Library, m: map<string, J>, keys: seq<string>): seq<string>
    decreases |keys|
  {
    if |keys| == 0 then []
    else (if keys[0] in m then [MemberText(lib, m[keys[0]])] else []) + FieldTexts(lib, m, keys[1..])
  }

  /** `Object.keys(theUnion).map(...)`: the member texts of a union entry. */
  function MemberTexts(lib: Library, u: J): seq<string> {
    match u
    case JObj(m) => FieldTexts(lib, m, lib.keyOrder(m))
    case JArr(s) => seq(|s|, i requires 0 <= i < |s| => MemberText(lib, s[i]))
    case JStr(s) => seq(|s|, i requires 0 <= i < |s| => [s[i]])
    case _ => []
  }

  /**
   * What `Object.keys` promises of a plain object's key list: every own key,
   * each exactly once, in some order.
   */
  predicate ListsEachKey(keys: seq<string>, m: map<string, J>) {
    && |keys| == |m|
    && (forall i :: 0 <= i < |keys| ==> keys[i] in m)
    && forall k :: k in m ==> k in keys
  }

  /** Over keys the object has, one member text per key, in key order. */
  lemma {:induction false} FieldTextsInKeyOrder(lib: Library, m: map<string, J>, keys: seq<string>)
    requires forall i :: 0 <= i < |keys| ==> keys[i] in m
    ensures |FieldTexts(lib, m, keys)| == |keys|
    ensures forall i :: 0 <= i < |keys| ==> FieldTexts(lib, m, keys)[i] == MemberText(lib, m[keys[i]])
    decreases |keys|
  {
    if |keys| > 0 {
      FieldTextsInKeyOrder(lib, m, keys[1..]);
      assert forall i :: 1 <= i < |keys| ==> keys[i] == keys[1..][i - 1];
    }
  }

  /**
   * When the key order lists each key of a plain-object union exactly once,
   * the flattened text has one member per key, the text at each position is
   * the member under that position's key, and every member appears.
   */
  lemma UnionMembersListed(lib: Library, m: map<string, J>)
    requires ListsEachKey(lib.keyOrder(m), m)
    ensures |MemberTexts(lib, JObj(m))| == |m|
    ensures forall i :: 0 <= i < |m| ==> lib.keyOrder(m)[i] in m
                                         && MemberTexts(lib, JObj(m))[i] == MemberText(lib, m[lib.keyOrder(m)[i]])
    ensures forall k :: k in m ==> MemberText(lib, m[k]) in MemberTexts(lib, JObj(m))
  {
    var keys := lib.keyOrder(m);
    FieldTextsInKeyOrder(lib, m, keys);
    forall k | k in m
      ensures MemberText(lib, m[k]) in MemberTexts(lib, JObj(m))
    {
      var i :| 0 <= i < |keys| && keys[i] == k;
      assert MemberTexts(lib, JObj(m))[i] == MemberText(lib, m[k]);
    }
  }

  /** The union rewrite: the field gets style `union` and its members joined into one string. */
  function Flatten(lib: Library, e: map<string, J>, union: J): (r: J)
    ensures r.JObj? && r.fields.Keys == e.Keys + {"valueStyle", "valueType"}
    ensures r.fields["valueStyle"] == JStr("union") && r.fields["valueType"] == JStr(Join(MemberTexts(lib, union), lib.separator))
    ensures forall k :: k in e && k != "valueStyle" && k != "valueType" ==> r.fields[k] == e[k]
  {
    JObj(Extend(e, JObj(map["valueStyle" := JStr("union"),
                            "valueType" := JStr(Join(MemberTexts(lib, union), lib.separator))])))
  }

  /**
   * The body of the walk for one field `ele`. A reference to a typedef is
   * merged with the typedef entry; a reference to a union that `isObject`
   * accepts is walked itself, otherwise flattened; anything else stays.
   */
  function Step(sc: Scope, lib: Library, e: J): (r: J)
    ensures r == e || (e.JObj? && r.JObj?)
    decreases e, 1
  {
    if !IsReference(e) then e
    else
      match RefKind(sc, e)
      case Some(Typedef) =>
        assert Defines(sc.store, Typedef, RefName(e));
        JObj(Extend(e.fields, Names(sc.store, Typedef)[RefName(e)]))
      case Some(Union) =>
        assert Defines(sc.store, Union, RefName(e));
        if IsObject(lib.isObject, e) then Walk(sc, lib, e)
        else Flatten(lib, e.fields, Names(sc.store, Union)[RefName(e)])
      case _ => e
  }

  /** The inner `fn(obj)`: nothing unless `isObject(obj)`, else every member stepped. */
  function Walk(sc: Scope, lib: Library, j: J): (r: J)
    ensures !IsObject(lib.isObject, j) ==> r == j
    ensures j.JObj? ==> r.JObj? && r.fields.Keys == j.fields.Keys
    ensures j.JArr? ==> r.JArr? && |r.items| == |j.items|
    ensures !j.JObj? && !j.JArr? ==> r == j
    decreases j, 0
  {
    if !IsObject(lib.isObject, j) then j
    else
      match j
      case JObj(m) => JObj(map k | k in m :: Step(sc, lib, m[k]))
      case JArr(s) => JArr(seq(|s|, i requires 0 <= i < |s| => Step(sc, lib, s[i])))
      case _ => j
  }

  /** `Utils.isObject(preobj3[slot])` and so on for the three walked slots of a method. */
  const MethodSlots: set<string> := {"returns", "arguments", "throws"}

  /** `fn(preobj3.returns); fn(preobj3.arguments); fn(preobj3.throws)` for one method. */
  function WalkMethod(sc: Scope, lib: Library, m: J): (r: J)
    ensures m.JObj? ==> r.JObj? && r.fields.Keys == m.fields.Keys
    ensures m.JObj? ==> forall k :: k in m.fields && k !in MethodSlots ==> r.fields[k] == m.fields[k]
    ensures !m.JObj? ==> r == m
  {
    if m.JObj? then
      JObj(map k | k in m.fields :: if k in MethodSlots then Walk(sc, lib, m.fields[k]) else m.fields[k])
    else m
  }

  /**
   * The loop over `Object.keys(preobj2)`: every method walked. Reading a
   * slot of a null or undefined method, or listing the keys of a null or
   * undefined `service` member, throws.
   */
  function WalkMethods(sc: Scope, lib: Library, svc: J): (r: Result<J, Fault>)
    ensures r.Err? <==> || Nullish(svc)
                        || (svc.JObj? && exists k :: k in svc.fields && Nullish(svc.fields[k]))
                        || (svc.JArr? && exists i :: 0 <= i < |svc.items| && Nullish(svc.items[i]))
    ensures r.Err? ==> r.error == TypeError
    ensures r.Ok? && svc.JObj? ==> r.value.JObj? && r.value.fields.Keys == svc.fields.Keys
                                   && forall k :: k in svc.fields ==> r.value.fields[k] == WalkMethod(sc, lib, svc.fields[k])
    ensures r.Ok? && svc.JArr? ==> r.value.JArr? && |r.value.items| == |svc.items|
                                   && forall i :: 0 <= i < |svc.items| ==> r.value.items[i] == WalkMethod(sc, lib, svc.items[i])
    ensures r.Ok? && !svc.JObj? && !svc.JArr? ==> r.value == svc
  {
    match svc
    case JNull => Err(TypeError)
    case JUndefined => Err(TypeError)
    case JObj(ms) =>
      if exists k :: k in ms && Nullish(ms[k]) then Err(TypeError)
      else Ok(JObj(map k | k in ms :: WalkMethod(sc, lib, ms[k])))
    case JArr(ms) =>
      if exists i :: 0 <= i < |ms| && Nullish(ms[i]) then Err(TypeError)
      else Ok(JArr(seq(|ms|, i requires 0 <= i < |ms| => WalkMethod(sc, lib, ms[i]))))
    case _ => Ok(svc)
  }

  /** The method walk repeated `n` times. */
  function WalkMethodsTimes(sc: Scope, lib: Library, svc: J, n: nat): (r: Result<J, Fault>)
    ensures r.Err? ==> r.error == TypeError
    ensures r.Ok? && svc.JObj? ==> r.value.JObj?
    decreases n
  {
    if n == 0 then Ok(svc)
    else
      match WalkMethods(sc, lib, svc)
      case Err(e) => Err(e)
      case Ok(v) => WalkMethodsTimes(sc, lib, v, n - 1)
  }

  /** `Object.keys(x).length` for a value `Object.keys` accepts. */
  function OwnKeyCount(j: J): nat {
    match j
    case JObj(m) => |m|
    case JArr(s) => |s|
    case JStr(s) => |s|
    case _ => 0
  }

  /**
   * One service entry (`preobj1`). The method walk runs once per own key of
   * the entry, though every round walks the same `service` member.
   */
  function ResolveServiceEntry(sc: Scope, lib: Library, entry: J): (r: Result<J, Fault>)
    ensures r.Err? <==> || Nullish(entry)
                        || (OwnKeyCount(entry) > 0
                            && (!(entry.JObj? && "service" in entry.fields)
                                || WalkMethodsTimes(sc, lib, entry.fields["service"], OwnKeyCount(entry)).Err?))
    ensures r.Err? ==> r.error == TypeError
    ensures r.Ok? ==> r.value == entry || (entry.JObj? && r.value.JObj? && r.value.fields.Keys == entry.fields.Keys)
    ensures !Nullish(entry) && OwnKeyCount(entry) == 0 ==> r == Ok(entry)
    ensures r.Ok? && OwnKeyCount(entry) > 0 ==>
              && entry.JObj? && "service" in entry.fields && r.value.JObj?
              && r.value.fields == entry.fields["service" := r.value.fields["service"]]
              && WalkMethodsTimes(sc, lib, entry.fields["service"], OwnKeyCount(entry)) == Ok(r.value.fields["service"])
  {
    if Nullish(entry) then Err(TypeError)
    else if OwnKeyCount(entry) == 0 then Ok(entry)
    else if !(entry.JObj? && "service" in entry.fields) then Err(TypeError)
    else
      match WalkMethodsTimes(sc, lib, entry.fields["service"], OwnKeyCount(entry))
      case Err(e) => Err(e)
      case Ok(v) => Ok(JObj(entry.fields["service" := v]))
  }

  /** Every entry of a kind walked as a struct or exception is. */
  function WalkEntries(sc: Scope, lib: Library, es: Entries): (r: Entries)
    ensures r.Keys == es.Keys
    ensures forall n :: n in es ==> Truthy(r[n]) == Truthy(es[n])
    ensures forall n :: n in es && !IsObject(lib.isObject, es[n]) ==> r[n] == es[n]
  {
    map n | n in es :: Walk(sc, lib, es[n])
  }

  /** The service loop over every service entry. */
  function ResolveServices(sc: Scope, lib: Library, es: Entries): (r: Result<Entries, Fault>)
    ensures r.Err? <==> exists n :: n in es && ResolveServiceEntry(sc, lib, es[n]).Err?
    ensures r.Err? ==> r.error == TypeError
    ensures r.Ok? ==> r.value.Keys == es.Keys
                      && forall n :: n in es ==> Ok(r.value[n]) == ResolveServiceEntry(sc, lib, es[n])
  {
    if exists n :: n in es && ResolveServiceEntry(sc, lib, es[n]).Err? then Err(TypeError)
    else Ok(map n | n in es :: ResolveServiceEntry(sc, lib, es[n]).value)
  }

  /**
   * Phase 2 over store `s`, names resolved in `sc`: exception, struct and
   * service entries are rewritten, every other kind is left as it is.
   */
  function InlineStore(sc: Scope, lib: Library, s: Store): (r: Result<Store, Fault>)
    ensures r.Err? <==> (Exception !in s || Struct !in s || Service !in s
                         || ResolveServices(sc, lib, s[Service]).Err?)
    ensures r.Err? ==> r.error == TypeError
    ensures r.Ok? ==> r.value.Keys == s.Keys
    ensures r.Ok? ==> forall k :: k in s && k != Exception && k != Struct && k != Service ==> r.value[k] == s[k]
    ensures r.Ok? ==> r.value[Exception] == WalkEntries(sc, lib, s[Exception])
    ensures r.Ok? ==> r.value[Struct] == WalkEntries(sc, lib, s[Struct])
    ensures r.Ok? ==> Ok(r.value[Service]) == ResolveServices(sc, lib, s[Service])
  {
    if Exception !in s || Struct !in s || Service !in s then Err(TypeError)
    else
      var services :- ResolveServices(sc, lib, s[Service]);
      Ok(s[Exception := WalkEntries(sc, lib, s[Exception])]
          [Struct := WalkEntries(sc, lib, s[Struct])]
          [Service := services])
  }
}

=== FILE: json.dfy ===
/**
 * JavaScript values as the resolver handles them: the descriptors, store
 * entries and generator outputs are all plain JSON-like values, plus
 * `undefined`, which the code produces and reads (missing members).
 */
module Json {

  datatype J =
    | JUndefined
    | JNull
    | JBool(b: bool)
    | JNum(n: int)
    | JStr(s: string)
    | JArr(items: seq<J>)
    | JObj(fields: map<string, J>)

  /** JavaScript truthiness (numbers are integers here, so NaN does not arise). */
  predicate Truthy(j: J) {
    match j
    case JUndefined => false
    case JNull => false
    case JBool(b) => b
    case JNum(n) => n != 0
    case JStr(s) => s != ""
    case _ => true
  }

  /** `j` is null or undefined: listing or reading its members throws a TypeError. */
  predicate Nullish(j: J) {
    j.JNull? || j.JUndefined?
  }

  /**
   * `j.k` for a named member that is neither an index nor `length`: only
   * plain objects carry such members.
   */
  function Member(j: J, k: string): J {
    if j.JObj? && k in j.fields then j.fields[k] else JUndefined
  }

  /**
   * `j[k]` on a value that is neither null nor undefined: a plain object's own
   * member; an array's element or a string's one-character string at an index
   * key, and the `length` of either; `undefined` for everything else.
   */
  function Read(j: J, k: string): (r: J)
    requires !Nullish(j)
    ensures j.JObj? ==> r == Member(j, k)
    ensures !j.JObj? && !j.JArr? && !j.JStr? ==> r == JUndefined
  {
    match j
    case JObj(m) => if k in m then m[k] else JUndefined
    case JArr(s) =>
      if k == "length" then JNum(|s|)
      else if IsIndexKey(k) && DigitsValue(k) < |s| then s[DigitsValue(k)]
      else JUndefined
    case JStr(s) =>
      if k == "length" then JNum(|s|)
      else if IsIndexKey(k) && DigitsValue(k) < |s| then JStr([s[DigitsValue(k)]])
      else JUndefined
    case _ => JUndefined
  }

  /** An array index as a property key: decimal digits without a leading zero. */
  predicate IsIndexKey(k: string) {
    && |k| >= 1
    && (forall i :: 0 <= i < |k| ==> '0' <= k[i] <= '9')
    && (k[0] == '0' ==> |k| == 1)
  }

  function DigitValue(c: char): nat {
    if '0' <= c <= '9' then c as int - '0' as int else 0
  }

  /** The number a string of decimal digits denotes, most significant digit first. */
  function DigitsValue(k: string): nat
    decreases |k|
  {
    if |k| == 0 then 0 else DigitsValue(k[..|k| - 1]) * 10 + DigitValue(k[|k| - 1])
  }

  /** The decimal text of a natural number is an index key that denotes that number. */
  lemma {:induction false} DigitsRoundTrip(n: nat)
    ensures IsIndexKey(Digits(n)) && DigitsValue(Digits(n)) == n
    decreases n
  {
    if n >= 10 {
      var d := Digits(n / 10);
      DigitsRoundTrip(n / 10);
      assert Digits(n) == d + [DigitChar(n % 10)];
      assert (d + [DigitChar(n % 10)])[..|d|] == d;
    }
  }

  /** `a[String(i)]` is the element at `i`, as `"ab"[0]` and `[x][0]` are. */
  lemma ReadIndex(j: J, i: nat)
    requires j.JArr? || j.JStr?
    ensures j.JArr? && i < |j.items| ==> Read(j, NumberText(i)) == j.items[i]
    ensures j.JStr? && i < |j.s| ==> Read(j, NumberText(i)) == JStr([j.s[i]])
    ensures j.JArr? && i >= |j.items| ==> Read(j, NumberText(i)) == JUndefined
    ensures j.JStr? && i >= |j.s| ==> Read(j, NumberText(i)) == JUndefined
  {
    DigitsRoundTrip(i);
    assert NumberText(i) != "length";
  }

  /**
   * `Utils.extend(a, b)` as a shallow override: every own key of `b` is
   * written onto `a`, `b` winning; a `b` that is not a plain object adds nothing.
   */
  function Extend(a: map<string, J>, b: J): (r: map<string, J>)
    ensures b.JObj? ==> r.Keys == a.Keys + b.fields.Keys
    ensures !b.JObj? ==> r == a
    ensures b.JObj? ==> forall k :: k in b.fields ==> r[k] == b.fields[k]
    ensures forall k :: k in a && (!b.JObj? || k !in b.fields) ==> r[k] == a[k]
  {
    if b.JObj? then a + b.fields else a
  }

  function DigitChar(d: nat): (c: char)
    requires d < 10
    ensures '0' <= c <= '9' && DigitValue(c) == d
  {
    ('0' as int + d) as char
  }

  /** Decimal rendering of a natural number, most significant digit first. */
  function Digits(n: nat): (r: string)
    ensures |r| >= 1
    decreases n
  {
    if n < 10 then [DigitChar(n)] else Digits(n / 10) + [DigitChar(n % 10)]
  }

  /** `String(n)` for an integer. */
  function NumberText(n: int): string {
    if n < 0 then "-" + Digits(-n) else Digits(n)
  }

  /** `parts.join(sep)`. */
  function Join(parts: seq<string>, sep: string): string
    decreases |parts|
  {
    if |parts| == 0 then ""
    else if |parts| == 1 then parts[0]
    else parts[0] + sep + Join(parts[1..], sep)
  }

  /**
   * The string a value becomes when used as a property key (`o[v]`,
   * `{[v]: ...}`): JavaScript's ToString on primitives, `Array.prototype.join`
   * on arrays (null and undefined elements print empty), and the default
   * `[object Object]` for plain objects.
   */
  function PropertyKey(j: J): string
    decreases j, 1
  {
    match j
    case JUndefined => "undefined"
    case JNull => "null"
    case JBool(b) => if b then "true" else "false"
    case JNum(n) => NumberText(n)
    case JStr(s) => s
    case JArr(items) => Join(seq(|items|, i requires 0 <= i < |items| => ElementText(items[i])), ",")
    case JObj(_) => "[object Object]"
  }

  function ElementText(j: J): string
    decreases j, 2
  {
    if j.JUndefined? || j.JNull? then "" else PropertyKey(j)
  }

  /** ASCII lower-casing of one character. */
  function LowerChar(c: char): char {
    if 'A' <= c <= 'Z' then (c as int + 32) as char else c
  }

  /** `s.toLowerCase()` on ASCII text. */
  function Lower(s: string): (r: string)
    ensures |r| == |s|
    ensures forall i :: 0 <= i < |s| ==> r[i] == LowerChar(s[i])
  {
    seq(|s|, i requires 0 <= i < |s| => LowerChar(s[i]))
  }
}

=== FILE: kinds.dfy ===
/** The definition kinds of a Thrift document, as the store keys them. */
module Kinds {

  /**
   * The seven kinds the tool resolves, plus any other lower-cased tag a leaf
   * parser may be registered for (`Other`).
   */
  datatype Kind = Typedef | Struct | Union | Exception | Enum | Service | Const | Other(tag: string)

  /** The store key of a kind: its lower-cased tag. */
  function KindName(k: Kind): string {
    match k
    case Typedef => "typedef"
    case Struct => "struct"
    case Union => "union"
    case Exception => "exception"
    case Enum => "enum"
    case Service => "service"
    case Const => "const"
    case Other(t) => t
  }

  const StandardNames: set<string> := {"typedef", "struct", "union", "exception", "enum", "service", "const"}

  /** A kind value that is the only spelling of its store key. */
  predicate Canonical(k: Kind) {
    k.Other? ==> k.tag !in StandardNames
  }

  /** The kind a lower-cased tag selects; the inverse of `KindName`. */
  function KindOf(tag: string): (k: Kind)
    ensures KindName(k) == tag
    ensures Canonical(k)
  {
    if tag == "typedef" then Typedef
    else if tag == "struct" then Struct
    else if tag == "union" then Union
    else if tag == "exception" then Exception
    else if tag == "enum" then Enum
    else if tag == "service" then Service
    else if tag == "const" then Const
    else Other(tag)
  }

  /** Every canonical kind is recovered from its store key. */
  lemma KindNameRoundTrip(k: Kind)
    requires Canonical(k)
    ensures KindOf(KindName(k)) == k
  {
  }

  /** The declared lookup order of the standard kinds (the tie-break order). */
  const DefaultOrder: seq<Kind> := [Typedef, Struct, Union, Exception, Enum, Service, Const]
}

=== FILE: normalise.dfy ===
/**
 * Phase 1 of `resolveDefUnion` (`_replaceDefUnionType`): every typedef entry
 * and every member of every union entry is rewritten to the shape the
 * `struct` leaf generator gives a single field of that name.
 */
module NormalisePhase {
  import opened Json
  import opened Kinds
  import opened Wrappers
  import opened Errors
  import opened DefinitionStore

  /**
   * `syntax => Generator['struct']({syntax, gen})`: the struct generator as an
   * opaque function of the struct syntax it is given.
   */
  type StructGenerator = map<string, J> -> J

  /** The struct generator renders nothing for the one-field struct `{[key]: value}`. */
  predicate FieldFails(g: StructGenerator, key: string, value: J) {
    Nullish(g(map[key := value]))
  }

  /**
   * `Generator['struct']({syntax: {[key]: value}, gen})[key]`: reading a member
   * of a null or undefined rendering throws.
   */
  function NormaliseField(g: StructGenerator, key: string, value: J): (r: Result<J, Fault>)
    ensures r.Err? <==> Nullish(g(map[key := value]))
    ensures r.Err? ==> r.error == TypeError
  {
    var out := g(map[key := value]);
    if Nullish(out) then Err(TypeError) else Ok(Read(out, key))
  }

  /**
   * What a rewritten member becomes: the rendering's own member of that name
   * when the rendering is an object; its element or character when it is an
   * array or string and the name is an index; `undefined` for a number or boolean.
   */
  lemma NormaliseFieldReads(g: StructGenerator, key: string, value: J, i: nat)
    ensures g(map[key := value]).JObj? ==>
              NormaliseField(g, key, value) == Ok(Member(g(map[key := value]), key))
    ensures key == NumberText(i) && g(map[key := value]).JArr? && i < |g(map[key := value]).items| ==>
              NormaliseField(g, key, value) == Ok(g(map[key := value]).items[i])
    ensures key == NumberText(i) && g(map[key := value]).JStr? && i < |g(map[key := value]).s| ==>
              NormaliseField(g, key, value) == Ok(JStr([g(map[key := value]).s[i]]))
    ensures g(map[key := value]).JNum? || g(map[key := value]).JBool? ==> NormaliseField(g, key, value) == Ok(JUndefined)
  {
    var out := g(map[key := value]);
    if out.JArr? || out.JStr? {
      ReadIndex(out, i);
    }
  }

  /**
   * The inner `fn(obj)` on a plain object: each member rewritten under its own
   * name; any member the generator renders nothing for throws.
   */
  function NormaliseFields(g: StructGenerator, m: Entries): (r: Result<Entries, Fault>)
    ensures r.Err? <==> exists k :: k in m && FieldFails(g, k, m[k])
    ensures r.Err? ==> r.error == TypeError
    ensures r.Ok? ==> r.value.Keys == m.Keys
    ensures r.Ok? ==> forall k :: k in m ==> Ok(r.value[k]) == NormaliseField(g, k, m[k])
  {
    if exists k :: k in m && FieldFails(g, k, m[k]) then Err(TypeError)
    else Ok(map k | k in m :: NormaliseField(g, k, m[k]).value)
  }

  /**
   * A union entry Phase 1 cannot rewrite: `Object.keys` of null or undefined
   * throws; writing an index of a non-empty string throws in strict-mode
   * code; and a member the generator renders nothing for throws.
   */
  predicate Unrewritable(g: StructGenerator, u: J) {
    || Nullish(u)
    || (u.JStr? && u.s != "")
    || (u.JObj? && exists k :: k in u.fields && FieldFails(g, k, u.fields[k]))
    || (u.JArr? && exists i :: 0 <= i < |u.items| && FieldFails(g, NumberText(i), u.items[i]))
  }

  /**
   * The inner `fn(obj)` on one union entry: plain objects are rewritten under
   * their keys, arrays under their index keys; numbers, booleans and the empty
   * string have no keys to rewrite.
   */
  function NormaliseUnionEntry(g: StructGenerator, u: J): (r: Result<J, Fault>)
    ensures r.Err? <==> Unrewritable(g, u)
    ensures r.Err? ==> r.error == TypeError
    ensures r.Ok? && u.JObj? ==> r.value.JObj? && r.value.fields.Keys == u.fields.Keys
                                 && forall k :: k in u.fields ==> Ok(r.value.fields[k]) == NormaliseField(g, k, u.fields[k])
    ensures r.Ok? && u.JArr? ==> r.value.JArr? && |r.value.items| == |u.items|
                                 && forall i :: 0 <= i < |u.items| ==> Ok(r.value.items[i]) == NormaliseField(g, NumberText(i), u.items[i])
    ensures r.Ok? && !u.JObj? && !u.JArr? ==> r.value == u
  {
    match u
    case JNull => Err(TypeError)
    case JUndefined => Err(TypeError)
    case JStr(s) => if s == "" then Ok(u) else Err(TypeError)
    case JObj(m) =>
      var fields :- NormaliseFields(g, m);
      Ok(JObj(fields))
    case JArr(s) =>
      if exists i :: 0 <= i < |s| && FieldFails(g, NumberText(i), s[i]) then Err(TypeError)
      else Ok(JArr(seq(|s|, i requires 0 <= i < |s| => NormaliseField(g, NumberText(i), s[i]).value)))
    case _ => Ok(u)
  }

  /**
   * `_replaceDefUnionType`. The store must hold a typedef map and a union map
   * (`Object.keys(undefined)` throws otherwise); typedef entries are
   * rewritten first, then the members of each union entry.
   */
  function NormaliseDefUnion(store: Store, g: StructGenerator): (r: Result<Store, Fault>)
    ensures r.Err? <==> (|| Typedef !in store || Union !in store
                         || (exists n :: n in store[Typedef] && FieldFails(g, n, store[Typedef][n]))
                         || exists n :: n in store[Union] && Unrewritable(g, store[Union][n]))
    ensures r.Err? ==> r.error == TypeError
    ensures r.Ok? ==> r.value.Keys == store.Keys
    ensures r.Ok? ==> forall k :: k in store && k != Typedef && k != Union ==> r.value[k] == store[k]
    ensures r.Ok? ==> r.value[Typedef].Keys == store[Typedef].Keys
                      && forall n :: n in store[Typedef] ==> Ok(r.value[Typedef][n]) == NormaliseField(g, n, store[Typedef][n])
    ensures r.Ok? ==> r.value[Union].Keys == store[Union].Keys
                      && forall n :: n in store[Union] ==> Ok(r.value[Union][n]) == NormaliseUnionEntry(g, store[Union][n])
  {
    if Typedef !in store || Union !in store then Err(TypeError)
    else
      var typedefs :- NormaliseFields(g, store[Typedef]);
      var unions := store[Union];
      if exists n :: n in unions && Unrewritable(g, unions[n]) then Err(TypeError)
      else Ok(store[Typedef := typedefs][Union := map n | n in unions :: NormaliseUnionEntry(g, unions[n]).value])
  }

  /** Phase 1 keeps whether each name is defined as a union. */
  lemma NormaliseKeepsUnionsDefined(store: Store, g: StructGenerator, name: string)
    requires NormaliseDefUnion(store, g).Ok?
    ensures Defines(NormaliseDefUnion(store, g).value, Union, name) == Defines(store, Union, name)
  {
    var s := NormaliseDefUnion(store, g).value;
    if name in store[Union] {
      var u := store[Union][name];
      assert Ok(s[Union][name]) == NormaliseUnionEntry(g, u);
    }
  }
}

=== FILE: rendering.dfy ===
/**
 * Rendering a set of names through a possibly raising renderer, the shape
 * of one kind's pass in the generate-all branch of `parse`.
 */
module Rendering {
  import opened Wrappers
  import opened Json
  import opened Errors

  /** Every name of `names` renders without raising. */
  predicate AllRender(render: string -> Result<J, Fault>, names: set<string>) {
    forall n :: n in names ==> render(n).Ok?
  }

  /** Each name of `names` mapped to what it renders to. */
  function RenderAll(render: string -> Result<J, Fault>, names: set<string>): map<string, J> {
    map n | n in names && render(n).Ok? :: render(n).value
  }

  /** A map holding every name with what it rendered to is the full rendering. */
  lemma Completed(render: string -> Result<J, Fault>, names: set<string>, out: map<string, J>)
    requires out.Keys == names
    requires forall n :: n in out ==> render(n) == Ok(out[n])
    ensures AllRender(render, names)
    ensures out == RenderAll(render, names)
  {
    assert out.Keys == RenderAll(render, names).Keys;
  }

  /** No names: nothing fails and nothing is rendered. */
  lemma NothingToRender(render: string -> Result<J, Fault>)
    ensures AllRender(render, {}) && RenderAll(render, {}) == map[]
  {
  }

  /**
   * One kind of the no-name branch of `parse`: render every name of
   * `names` into a fresh map. The first raising render aborts; which name
   * goes first is left open, since the order of `Object.keys` is not
   * modelled.
   */
  method GenerateKind(render: string -> Result<J, Fault>, names: set<string>)
    returns (r: Result<map<string, J>, Fault>)
    ensures r.Ok? <==> AllRender(render, names)
    ensures r.Ok? ==> r.value == RenderAll(render, names)
    ensures r.Err? ==> exists n :: n in names && render(n) == Err(r.error)
  {
    var out := map[];
    var todo := names;
    while todo != {}
      invariant out.Keys + todo == names
      invariant out.Keys !! todo
      invariant forall n :: n in out ==> render(n) == Ok(out[n])
      decreases |todo|
    {
      var n :| n in todo;
      var g := render(n);
      if g.Err? {
        return Err(g.error);
      }
      out := out[n := g.value];
      todo := todo - {n};
    }
    Completed(render, names, out);
    return Ok(out);
  }

  /**
   * Every kind of `kinds`, in order, through `GenerateKind` over its names
   * (`names(k)`); the first failing kind's error is the answer.
   */
  method GenerateKinds<K(==)>(render: string -> Result<J, Fault>, kinds: seq<K>, names: K -> set<string>)
    returns (r: Result<map<K, map<string, J>>, Fault>)
    ensures r.Ok? <==> forall i :: 0 <= i < |kinds| ==> AllRender(render, names(kinds[i]))
    ensures r.Ok? ==> r.value.Keys == set i | 0 <= i < |kinds| :: kinds[i]
    ensures r.Ok? ==> forall k :: k in r.value ==> r.value[k] == RenderAll(render, names(k))
    ensures r.Err? ==> exists i, n :: 0 <= i < |kinds| && n in names(kinds[i]) && render(n) == Err(r.error)
                                      && forall j :: 0 <= j < i ==> AllRender(render, names(kinds[j]))
  {
    var all: map<K, map<string, J>> := map[];
    var i := 0;
    while i < |kinds|
      invariant 0 <= i <= |kinds|
      invariant forall j :: 0 <= j < i ==> AllRender(render, names(kinds[j]))
      invariant all.Keys == set j | 0 <= j < i :: kinds[j]
      invariant forall k :: k in all ==> all[k] == RenderAll(render, names(k))
    {
      var k := kinds[i];
      // `ALL[type] || {}` only matters for a kind listed twice, whose second
      // pass renders the very same names and values.
      var out :- GenerateKind(render, names(k));
      all := all[k := out];
      i := i + 1;
    }
    return Ok(all);
  }
}

=== FILE: store.dfy ===
/**
 * The definition store: kind -> name -> definition, created with an empty
 * map per kind, filled kind by kind, and searched in the declared kind order.
 */
module DefinitionStore {
  import opened Json
  import opened Kinds
  import opened Wrappers

  type Entries = map<string, J>
  type Store = map<Kind, Entries>

  /** `store[k]`, reading a kind the store does not hold as empty. */
  function Names(store: Store, k: Kind): Entries {
    if k in store then store[k] else map[]
  }

  /** `store[k][name]` is truthy: the name counts as defined under `k`. */
  predicate Defines(store: Store, k: Kind, name: string) {
    name in Names(store, k) && Truthy(Names(store, k)[name])
  }

  /** Every kind of the declared order has an entry in the store. */
  predicate Covers(store: Store, kinds: seq<Kind>) {
    forall i :: 0 <= i < |kinds| ==> kinds[i] in store
  }

  /** `_createStore`: one empty map for every declared kind, nothing else. */
  function CreateStore(kinds: seq<Kind>): (s: Store)
    ensures Covers(s, kinds)
    ensures forall k :: k in s ==> k in kinds && s[k] == map[]
  {
    map k | k in kinds :: map[]
  }

  /**
   * `_setStoreByType`: merge a leaf parser's payload into the kind's map.
   * Names already there survive unless the payload redefines them; other
   * kinds are untouched.
   */
  function SetStoreByType(store: Store, k: Kind, payload: Entries): (s: Store)
    ensures s.Keys == store.Keys + {k}
    ensures forall k' :: k' in store && k' != k ==> s[k'] == store[k']
    ensures s[k].Keys == Names(store, k).Keys + payload.Keys
    ensures forall n :: n in payload ==> s[k][n] == payload[n]
    ensures forall n :: n in Names(store, k) && n !in payload ==> s[k][n] == Names(store, k)[n]
  {
    store[k := Names(store, k) + payload]
  }

  /**
   * `findThriftType`: the first kind, in the declared order, under which the
   * name is defined; `None` when no kind defines it.
   */
  function FindKind(store: Store, kinds: seq<Kind>, name: string): (r: Option<Kind>)
    ensures r.None? <==> forall i :: 0 <= i < |kinds| ==> !Defines(store, kinds[i], name)
    ensures r.Some? ==> exists i :: 0 <= i < |kinds| && kinds[i] == r.value && Defines(store, kinds[i], name)
                                    && forall j :: 0 <= j < i ==> !Defines(store, kinds[j], name)
    decreases |kinds|
  {
    if |kinds| == 0 then None
    else if Defines(store, kinds[0], name) then Some(kinds[0])
    else
      var r := FindKind(store, kinds[1..], name);
      if r.Some? then
        var i :| 0 <= i < |kinds[1..]| && kinds[1..][i] == r.value && Defines(store, kinds[1..][i], name)
                 && forall j :: 0 <= j < i ==> !Defines(store, kinds[1..][j], name);
        assert kinds[i + 1] == r.value;
        r
      else r
  }

  /** The first defining kind is the answer: a later kind never overrides an earlier one. */
  lemma EarlierKindWins(store: Store, kinds: seq<Kind>, name: string, i: nat)
    requires i < |kinds| && Defines(store, kinds[i], name)
    requires forall j :: 0 <= j < i ==> !Defines(store, kinds[j], name)
    ensures FindKind(store, kinds, name) == Some(kinds[i])
  {
    var r := FindKind(store, kinds, name);
    var i' :| 0 <= i' < |kinds| && kinds[i'] == r.value && Defines(store, kinds[i'], name)
              && forall j :: 0 <= j < i' ==> !Defines(store, kinds[j], name);
    assert Defines(store, kinds[i], name) && Defines(store, kinds[i'], name);
  }

  /** Two stores that agree on which names each kind defines resolve every name alike. */
  lemma {:induction false} FindKindRespectsDefines(a: Store, b: Store, kinds: seq<Kind>, name: string)
    requires forall k :: k in kinds ==> Defines(a, k, name) == Defines(b, k, name)
    ensures FindKind(a, kinds, name) == FindKind(b, kinds, name)
    decreases |kinds|
  {
    if |kinds| > 0 && !Defines(a, kinds[0], name) {
      FindKindRespectsDefines(a, b, kinds[1..], name);
    }
  }

  /** A freshly created store defines nothing. */
  lemma CreatedStoreFindsNothing(kinds: seq<Kind>, name: string)
    ensures FindKind(CreateStore(kinds), kinds, name) == None
  {
    var s := CreateStore(kinds);
    forall i | 0 <= i < |kinds|
      ensures !Defines(s, kinds[i], name)
    {
      assert Names(s, kinds[i]) == map[];
    }
  }

  /**
   * The documented tie-break: with the declared order, a name defined both
   * as a struct and as a const resolves to struct.
   */
  lemma StructBeatsConst(store: Store, name: string)
    requires Defines(store, Struct, name) && Defines(store, Const, name)
    requires !Defines(store, Typedef, name)
    ensures FindKind(store, DefaultOrder, name) == Some(Struct)
  {
    EarlierKindWins(store, DefaultOrder, name, 1);
  }
}

=== FILE: thrift_tool.dfy ===
/**
 * `ThriftTool.parse`: categorise the parsed definitions into the store,
 * run the def/union resolution, then generate one named definition or
 * every stored name of every kind.
 */
module ThriftTool {
  import opened Json
  import opened Kinds
  import opened Wrappers
  import opened Errors
  import opened DefinitionStore
  import opened Dispatcher
  import opened NormalisePhase
  import opened InlinePhase
  import opened DefUnion
  import opened Rendering

  /** One parsed definition: its raw kind tag and the rest of its syntax. */
  datatype Definition = Definition(tag: string, node: J)

  /**
   * A per-kind leaf parser: the entries (name -> definition) one definition
   * contributes, or the error it raises.
   */
  type LeafParser = Definition -> Result<Entries, Fault>

  /** Everything `parse` consults besides its arguments. */
  datatype Config = Config(
    kinds: seq<Kind>,
    parsers: map<string, LeafParser>,
    generators: map<Kind, Generator>,
    structGenerator: StructGenerator,
    library: Library)

  /** `parse` answers with one definition, or with every definition grouped by kind. */
  datatype Output = One(json: J) | All(all: map<Kind, map<string, J>>)

  /** The kind a definition is stored under. */
  function DefKind(d: Definition): Kind {
    KindOf(Lower(d.tag))
  }

  /**
   * Looking up and calling the leaf parser of a definition's lower-cased
   * tag; a tag without a parser raises `UnknownLeafKind`.
   */
  function Parsed(parsers: map<string, LeafParser>, d: Definition): Result<Entries, Fault> {
    if Lower(d.tag) in parsers then parsers[Lower(d.tag)](d) else Err(UnknownLeafKind(Lower(d.tag)))
  }

  /** A definition whose lower-cased tag has a leaf parser, and that parser does not raise. */
  predicate Parsable(parsers: map<string, LeafParser>, d: Definition) {
    Parsed(parsers, d).Ok?
  }

  /** What a definition's leaf parser contributes (nothing when it raises). */
  function Payload(parsers: map<string, LeafParser>, d: Definition): Entries {
    if Parsable(parsers, d) then Parsed(parsers, d).value else map[]
  }

  /**
   * The value the last definition storing `n` under kind `k` gave it, read
   * from the end of the sequence; `None` when no definition stores it.
   */
  function Latest(parsers: map<string, LeafParser>, defs: seq<Definition>, k: Kind, n: string): Option<J>
    decreases |defs|
  {
    if |defs| == 0 then None
    else
      var last := defs[|defs| - 1];
      if DefKind(last) == k && n in Payload(parsers, last) then Some(Payload(parsers, last)[n])
      else Latest(parsers, defs[..|defs| - 1], k, n)
  }

  /** Reading from the end agrees with peeling the first definition off. */
  lemma {:induction false} LatestCons(parsers: map<string, LeafParser>, defs: seq<Definition>, k: Kind, n: string)
    requires |defs| > 0
    ensures Latest(parsers, defs, k, n) ==
              if Latest(parsers, defs[1..], k, n).Some? then Latest(parsers, defs[1..], k, n)
              else if DefKind(defs[0]) == k && n in Payload(parsers, defs[0]) then Some(Payload(parsers, defs[0])[n])
              else None
    decreases |defs|
  {
    if |defs| > 1 {
      var init := defs[..|defs| - 1];
      LatestCons(parsers, init, k, n);
      assert init[1..] == defs[1..][..|defs[1..]| - 1];
      assert init[0] == defs[0];
      assert defs[1..][|defs[1..]| - 1] == defs[|defs| - 1];
    }
  }

  /**
   * The categorisation loop of `parse`: each definition's payload is merged
   * into its kind's map in order; the first definition without a leaf
   * parser, or whose parser raises, stops everything with that error.
   */
  function Categorize(parsers: map<string, LeafParser>, defs: seq<Definition>, store: Store): (r: Result<Store, Fault>)
    ensures r.Err? <==> exists i :: 0 <= i < |defs| && !Parsable(parsers, defs[i])
    ensures r.Err? ==> exists i :: 0 <= i < |defs| && !Parsable(parsers, defs[i])
                                   && (forall j :: 0 <= j < i ==> Parsable(parsers, defs[j]))
                                   && r.error == Parsed(parsers, defs[i]).error
    ensures r.Ok? ==> store.Keys <= r.value.Keys
    decreases |defs|
  {
    if |defs| == 0 then Ok(store)
    else if !Parsable(parsers, defs[0]) then Err(Parsed(parsers, defs[0]).error)
    else
      var r := Categorize(parsers, defs[1..], SetStoreByType(store, DefKind(defs[0]), Payload(parsers, defs[0])));
      assert forall i :: 0 <= i < |defs| - 1 ==> defs[1..][i] == defs[i + 1];
      if r.Err? then
        var i :| 0 <= i < |defs[1..]| && !Parsable(parsers, defs[1..][i])
                 && (forall j :: 0 <= j < i ==> Parsable(parsers, defs[1..][j]))
                 && r.error == Parsed(parsers, defs[1..][i]).error;
        assert forall j :: 0 <= j < i + 1 ==> Parsable(parsers, defs[j]);
        r
      else r
  }

  /**
   * After categorisation a kind holds a name exactly when the initial store
   * or some definition put it there, and the definition that came last wins.
   */
  lemma {:induction false} CategorizeContents(parsers: map<string, LeafParser>, defs: seq<Definition>, store: Store,
                                              k: Kind, n: string)
    requires Categorize(parsers, defs, store).Ok?
    ensures var out := Names(Categorize(parsers, defs, store).value, k);
            && (n in out <==> n in Names(store, k) || Latest(parsers, defs, k, n).Some?)
            && (Latest(parsers, defs, k, n).Some? ==> out[n] == Latest(parsers, defs, k, n).value)
            && (Latest(parsers, defs, k, n).None? && n in out ==> out[n] == Names(store, k)[n])
    decreases |defs|
  {
    if |defs| > 0 {
      var next := SetStoreByType(store, DefKind(defs[0]), Payload(parsers, defs[0]));
      assert Categorize(parsers, defs, store) == Categorize(parsers, defs[1..], next);
      CategorizeContents(parsers, defs[1..], next, k, n);
      LatestCons(parsers, defs, k, n);
    }
  }

  /** The store keeps every kind it started with and gains the kind of every definition, and no other. */
  lemma {:induction false} CategorizeKinds(parsers: map<string, LeafParser>, defs: seq<Definition>, store: Store, k: Kind)
    requires Categorize(parsers, defs, store).Ok?
    ensures k in Categorize(parsers, defs, store).value <==> k in store || exists i :: 0 <= i < |defs| && DefKind(defs[i]) == k
    decreases |defs|
  {
    if |defs| > 0 {
      var next := SetStoreByType(store, DefKind(defs[0]), Payload(parsers, defs[0]));
      assert Categorize(parsers, defs, store) == Categorize(parsers, defs[1..], next);
      CategorizeKinds(parsers, defs[1..], next, k);
      if exists i :: 0 <= i < |defs| && DefKind(defs[i]) == k {
        var i :| 0 <= i < |defs| && DefKind(defs[i]) == k;
        if i > 0 {
          assert DefKind(defs[1..][i - 1]) == k;
        }
      }
      if exists i :: 0 <= i < |defs| - 1 && DefKind(defs[1..][i]) == k {
        var i :| 0 <= i < |defs| - 1 && DefKind(defs[1..][i]) == k;
        assert DefKind(defs[i + 1]) == k;
      }
    }
  }

  /** The keys `parse` generates for a kind: every stored name except the empty one. */
  function Listed(store: Store, k: Kind): set<string> {
    set n | n in Names(store, k) && n != ""
  }

  /** `gen` over a fixed store, as the generate-all loop calls it. */
  function Renderer(store: Store, kinds: seq<Kind>, generators: map<Kind, Generator>): string -> Result<J, Fault> {
    n => Gen(store, kinds, generators, n)
  }

  /** Every listed name of kind `k` generates without raising. */
  predicate KindGenerates(store: Store, kinds: seq<Kind>, generators: map<Kind, Generator>, k: Kind) {
    AllRender(Renderer(store, kinds, generators), Listed(store, k))
  }

  /** `ALL[k]`: each listed name of kind `k` mapped to what `gen` makes of it. */
  function Rendered(store: Store, kinds: seq<Kind>, generators: map<Kind, Generator>, k: Kind): map<string, J> {
    RenderAll(Renderer(store, kinds, generators), Listed(store, k))
  }

  /**
   * The no-name branch of `parse`: for every declared kind, in order, `gen`
   * every listed name; the first raising `gen` aborts the whole call.
   */
  method GenerateAll(store: Store, kinds: seq<Kind>, generators: map<Kind, Generator>)
    returns (r: Result<map<Kind, map<string, J>>, Fault>)
    ensures r.Ok? <==> forall i :: 0 <= i < |kinds| ==> KindGenerates(store, kinds, generators, kinds[i])
    ensures r.Ok? ==> r.value.Keys == set i | 0 <= i < |kinds| :: kinds[i]
    ensures r.Ok? ==> forall k :: k in r.value ==> r.value[k] == Rendered(store, kinds, generators, k)
    ensures r.Err? ==> exists i, n :: 0 <= i < |kinds| && n in Listed(store, kinds[i])
                                      && Gen(store, kinds, generators, n) == Err(r.error)
                                      && forall j :: 0 <= j < i ==> KindGenerates(store, kinds, generators, kinds[j])
  {
    r := GenerateKinds(Renderer(store, kinds, generators), kinds, k => Listed(store, k));
  }

  /**
   * A name stored under several kinds is generated, in every kind's `ALL`
   * map, by the generator of the first kind that defines it.
   */
  lemma ShadowedNameUsesFirstKind(store: Store, kinds: seq<Kind>, generators: map<Kind, Generator>, i: nat, k: Kind, n: string)
    requires i < |kinds| && Defines(store, kinds[i], n)
    requires forall j :: 0 <= j < i ==> !Defines(store, kinds[j], n)
    requires n in Listed(store, k) && kinds[i] in generators
    requires generators[kinds[i]](n, store[kinds[i]][n]).Ok?
    ensures n in Rendered(store, kinds, generators, k)
    ensures Rendered(store, kinds, generators, k)[n] == generators[kinds[i]](n, store[kinds[i]][n]).value
  {
    assert Gen(store, kinds, generators, n) == generators[kinds[i]](n, store[kinds[i]][n]);
  }

  /**
   * The instance store after categorisation into `store` and the def/union
   * resolution.
   */
  function ResolvedStore(cfg: Config, store: Store, defs: seq<Definition>): (r: Result<Store, Fault>)
    ensures (exists i :: 0 <= i < |defs| && !Parsable(cfg.parsers, defs[i])) ==>
              r.Err? && exists i :: 0 <= i < |defs| && !Parsable(cfg.parsers, defs[i])
                                    && (forall j :: 0 <= j < i ==> Parsable(cfg.parsers, defs[j]))
                                    && r.error == Parsed(cfg.parsers, defs[i]).error
    ensures r.Ok? ==> store.Keys <= r.value.Keys
  {
    var categorized :- Categorize(cfg.parsers, defs, store);
    ResolveDefUnion(categorized, cfg.kinds, cfg.library, cfg.structGenerator)
  }

  /**
   * The store an instance keeps across calls only grows: every name stored
   * before a successful resolution is still stored, under the same kind,
   * afterwards, and so is every name a definition of this call stores.
   */
  lemma ResolveKeepsNames(cfg: Config, store: Store, defs: seq<Definition>, k: Kind, n: string)
    ensures ResolvedStore(cfg, store, defs).Ok? && (n in Names(store, k) || Latest(cfg.parsers, defs, k, n).Some?) ==>
              n in Names(ResolvedStore(cfg, store, defs).value, k)
  {
    if ResolvedStore(cfg, store, defs).Ok? {
      var c := Categorize(cfg.parsers, defs, store).value;
      CategorizeContents(cfg.parsers, defs, store, k, n);
      ResolveKeepsKeys(c, cfg.kinds, cfg.library, cfg.structGenerator, k);
    }
  }

  /** A store in which every kind is empty. */
  predicate Blank(s: Store) {
    forall k :: k in s ==> s[k] == map[]
  }

  /** Phase 1 leaves a blank store blank. */
  lemma NormaliseBlank(s: Store, g: StructGenerator)
    requires Blank(s) && Typedef in s && Union in s
    ensures NormaliseDefUnion(s, g) == Ok(s)
  {
    assert NormaliseFields(g, s[Typedef]) == Ok(map[]);
    assert s[Typedef := map[]][Union := map[]] == s;
  }

  /** Phase 2 leaves a blank store blank. */
  lemma InlineBlank(sc: Scope, lib: Library, s: Store)
    requires Blank(s) && Exception in s && Struct in s && Service in s
    ensures InlineStore(sc, lib, s) == Ok(s)
  {
    assert ResolveServices(sc, lib, s[Service]) == Ok(map[]);
    assert WalkEntries(sc, lib, s[Exception]) == map[];
    assert WalkEntries(sc, lib, s[Struct]) == map[];
    assert s[Exception := map[]][Struct := map[]][Service := map[]] == s;
  }

  /** A blank store lists no name under any kind. */
  lemma BlankListsNothing(s: Store, k: Kind)
    requires Blank(s)
    ensures Listed(s, k) == {}
  {
    assert Names(s, k) == map[];
  }

  /** Both phases leave a blank store blank. */
  lemma ResolveBlank(s: Store, kinds: seq<Kind>, lib: Library, g: StructGenerator)
    requires Blank(s) && forall k :: k in DefaultOrder ==> k in s
    ensures ResolveDefUnion(s, kinds, lib, g) == Ok(s)
  {
    NormaliseBlank(s, g);
    InlineBlank(Scope(s, kinds), lib, s);
  }

  /**
   * An empty definitions list is accepted: on a fresh instance with every
   * standard kind declared, resolution succeeds and every kind generates to
   * an empty map.
   */
  lemma EmptyDefinitionsAccepted(cfg: Config)
    requires forall k :: k in DefaultOrder ==> k in cfg.kinds
    ensures ResolvedStore(cfg, CreateStore(cfg.kinds), []).Ok?
    ensures forall k :: k in cfg.kinds ==>
              KindGenerates(ResolvedStore(cfg, CreateStore(cfg.kinds), []).value, cfg.kinds, cfg.generators, k)
              && Rendered(ResolvedStore(cfg, CreateStore(cfg.kinds), []).value, cfg.kinds, cfg.generators, k) == map[]
  {
    var s0 := CreateStore(cfg.kinds);
    assert Typedef in s0 && Union in s0 && Exception in s0 && Struct in s0 && Service in s0;
    ResolveBlank(s0, cfg.kinds, cfg.library, cfg.structGenerator);
    assert ResolvedStore(cfg, s0, []) == Ok(s0);
    forall k | k in cfg.kinds
      ensures KindGenerates(s0, cfg.kinds, cfg.generators, k) && Rendered(s0, cfg.kinds, cfg.generators, k) == map[]
    {
      BlankListsNothing(s0, k);
      NothingToRender(Renderer(s0, cfg.kinds, cfg.generators));
    }
  }

  /**
   * `parse(filePath, name)` on an instance whose store is `store`, after the
   * AST has been read: `definitions` is the entry point's definition list
   * (`None` when it is absent), `name` the requested name (`None` when not
   * given). `next` is the instance's store afterwards; the constructor's
   * store is `CreateStore(cfg.kinds)`, and later calls continue from the
   * store the previous call left. Every declared kind has a map in the
   * store and is spelled as the source spells it, so `store[type]` never
   * reads a missing kind and `type === 'typedef'` picks out exactly
   * `Typedef`.
   */
  method Parse(cfg: Config, store: Store, definitions: Option<seq<Definition>>, name: Option<string>)
    returns (r: Result<Output, Fault>, next: Store)
    requires Covers(store, cfg.kinds)
    requires forall i :: 0 <= i < |cfg.kinds| ==> Canonical(cfg.kinds[i])
    ensures Covers(next, cfg.kinds)
    ensures definitions.None? ==> r == Err(SyntaxError) && next == store
    ensures definitions.Some? && ResolvedStore(cfg, store, definitions.value).Err? ==>
              r == Err(ResolvedStore(cfg, store, definitions.value).error)
    ensures definitions.Some? && ResolvedStore(cfg, store, definitions.value).Ok? ==>
              next == ResolvedStore(cfg, store, definitions.value).value
    ensures definitions.Some? && ResolvedStore(cfg, store, definitions.value).Ok? && name.Some? && name.value != "" ==>
              var g := Gen(ResolvedStore(cfg, store, definitions.value).value, cfg.kinds, cfg.generators, name.value);
              r == (if g.Ok? then Ok(One(g.value)) else Err(g.error))
    ensures definitions.Some? && ResolvedStore(cfg, store, definitions.value).Ok? && (name.None? || name.value == "") ==>
              var s := ResolvedStore(cfg, store, definitions.value).value;
              && (r.Ok? <==> forall i :: 0 <= i < |cfg.kinds| ==> KindGenerates(s, cfg.kinds, cfg.generators, cfg.kinds[i]))
              && (r.Ok? ==> r.value.All? && r.value.all.Keys == set i | 0 <= i < |cfg.kinds| :: cfg.kinds[i])
              && (r.Ok? ==> forall k :: k in r.value.all ==> r.value.all[k] == Rendered(s, cfg.kinds, cfg.generators, k))
  {
    next := store;
    if definitions.None? {
      return Err(SyntaxError), next;
    }
    var resolved := ResolvedStore(cfg, store, definitions.value);
    if resolved.Err? {
      return Err(resolved.error), next;
    }
    next := resolved.value;
    if name.None? || name.value == "" {
      var all := GenerateAll(next, cfg.kinds, cfg.generators);
      if all.Err? {
        return Err(all.error), next;
      }
      return Ok(All(all.value)), next;
    }
    var json := Gen(next, cfg.kinds, cfg.generators, name.value);
    if json.Err? {
      return Err(json.error), next;
    }
    return Ok(One(json.value)), next;
  }
}

=== FILE: type_descriptor.dfy ===
/**
 * `resolveMixType`: a type-syntax node (base type, identifier, list/set of a
 * type, map of two types) becomes a descriptor `{valueStyle, valueType[,
 * keyType]}`; any other node yields nothing.
 */
module TypeDescriptor {
  import opened Json
  import opened Wrappers

  /**
   * A type-syntax node. The constructor stands for the node's lower-cased
   * discriminator; `OtherNode` carries any discriminator outside the five.
   */
  datatype TypeNode =
    | BaseTypeNode(baseType: string)
    | IdentifierNode(name: string)
    | SetNode(valueType: TypeNode)
    | ListNode(valueType: TypeNode)
    | MapNode(keyType: TypeNode, valueType: TypeNode)
    | OtherNode(tag: string)

  /**
   * A resolved descriptor. A container's component is `None` where the
   * nested node had an unknown discriminator (the JavaScript object then
   * holds `undefined` there).
   */
  datatype Descriptor =
    | BaseDesc(baseType: string)
    | IdentDesc(name: string)
    | SetDesc(element: Option<Descriptor>)
    | ListDesc(element: Option<Descriptor>)
    | MapDesc(key: Option<Descriptor>, value: Option<Descriptor>)

  /** The lower-cased discriminator of a node. */
  function NodeTag(node: TypeNode): string {
    match node
    case BaseTypeNode(_) => "basetype"
    case IdentifierNode(_) => "identifier"
    case SetNode(_) => "set"
    case ListNode(_) => "list"
    case MapNode(_, _) => "map"
    case OtherNode(t) => t
  }

  /** The `valueStyle` a descriptor carries. */
  function Style(d: Descriptor): string {
    match d
    case BaseDesc(_) => "basetype"
    case IdentDesc(_) => "identifier"
    case SetDesc(_) => "set"
    case ListDesc(_) => "list"
    case MapDesc(_, _) => "map"
  }

  /** The five discriminators `resolveMixType` recognises. */
  const TypeTags: set<string> := {"basetype", "identifier", "set", "list", "map"}

  /**
   * A node whose constructors are the only reading of its discriminators:
   * an `OtherNode` anywhere in it carries none of the five known tags.
   */
  predicate CanonicalNode(node: TypeNode) {
    match node
    case SetNode(v) => CanonicalNode(v)
    case ListNode(v) => CanonicalNode(v)
    case MapNode(k, v) => CanonicalNode(k) && CanonicalNode(v)
    case OtherNode(t) => t !in TypeTags
    case _ => true
  }

  /** `resolveMixType`. */
  function ResolveMixType(node: TypeNode): (r: Option<Descriptor>)
    ensures CanonicalNode(node) ==> (r.None? <==> NodeTag(node) !in TypeTags)
    ensures r.None? <==> node.OtherNode?
    ensures r.Some? ==> Style(r.value) == NodeTag(node)
  {
    match node
    case BaseTypeNode(b) => Some(BaseDesc(b))
    case IdentifierNode(n) => Some(IdentDesc(n))
    case SetNode(v) => Some(SetDesc(ResolveMixType(v)))
    case ListNode(v) => Some(ListDesc(ResolveMixType(v)))
    case MapNode(k, v) => Some(MapDesc(ResolveMixType(k), ResolveMixType(v)))
    case OtherNode(_) => None
  }

  /** The node a complete descriptor was resolved from (the inverse of `ResolveMixType`). */
  function NodeOf(d: Descriptor): TypeNode
    requires Complete(d)
  {
    match d
    case BaseDesc(b) => BaseTypeNode(b)
    case IdentDesc(n) => IdentifierNode(n)
    case SetDesc(e) => SetNode(NodeOf(e.value))
    case ListDesc(e) => ListNode(NodeOf(e.value))
    case MapDesc(k, v) => MapNode(NodeOf(k.value), NodeOf(v.value))
  }

  /** A descriptor with no missing component anywhere. */
  predicate Complete(d: Descriptor) {
    match d
    case SetDesc(e) => e.Some? && Complete(e.value)
    case ListDesc(e) => e.Some? && Complete(e.value)
    case MapDesc(k, v) => k.Some? && v.Some? && Complete(k.value) && Complete(v.value)
    case _ => true
  }

  /** A node built only from the five known discriminators. */
  predicate Known(node: TypeNode) {
    match node
    case SetNode(v) => Known(v)
    case ListNode(v) => Known(v)
    case MapNode(k, v) => Known(k) && Known(v)
    case OtherNode(_) => false
    case _ => true
  }

  /**
   * On known nodes the resolver loses nothing: every wrapper becomes exactly
   * one descriptor level and the node is recovered from the result.
   */
  lemma {:induction false} ResolveThenRecover(node: TypeNode)
    requires Known(node)
    ensures ResolveMixType(node).Some? && Complete(ResolveMixType(node).value)
    ensures NodeOf(ResolveMixType(node).value) == node
  {
    match node
    case SetNode(v) => ResolveThenRecover(v);
    case ListNode(v) => ResolveThenRecover(v);
    case MapNode(k, v) => ResolveThenRecover(k); ResolveThenRecover(v);
    case BaseTypeNode(_) =>
    case IdentifierNode(_) =>
  }

  /** Every complete descriptor is what the resolver makes of its node. */
  lemma {:induction false} RecoverThenResolve(d: Descriptor)
    requires Complete(d)
    ensures Known(NodeOf(d))
    ensures ResolveMixType(NodeOf(d)) == Some(d)
  {
    match d
    case SetDesc(e) => RecoverThenResolve(e.value);
    case ListDesc(e) => RecoverThenResolve(e.value);
    case MapDesc(k, v) => RecoverThenResolve(k.value); RecoverThenResolve(v.value);
    case BaseDesc(_) =>
    case IdentDesc(_) =>
  }

  /** The JavaScript object for a descriptor component: `undefined` where nothing was produced. */
  function ComponentJson(c: Option<Descriptor>): J
    decreases c, 0
  {
    match c
    case None => JUndefined
    case Some(d) => ToJson(d)
  }

  /** The JavaScript object `resolveMixType` returns for a descriptor. */
  function ToJson(d: Descriptor): J
    decreases d, 1
  {
    var style := JStr(Style(d));
    match d
    case BaseDesc(b) => JObj(map["valueStyle" := style, "valueType" := JStr(b)])
    case IdentDesc(n) => JObj(map["valueStyle" := style, "valueType" := JStr(n)])
    case SetDesc(e) => JObj(map["valueStyle" := style, "valueType" := ComponentJson(e)])
    case ListDesc(e) => JObj(map["valueStyle" := style, "valueType" := ComponentJson(e)])
    case MapDesc(k, v) =>
      JObj(map["valueStyle" := style, "keyType" := ComponentJson(k), "valueType" := ComponentJson(v)])
  }

  /** Reads a component back: `undefined` is "nothing produced". */
  function ComponentFromJson(j: J): Option<Option<Descriptor>>
    decreases j, 2
  {
    if j.JUndefined? then Some(None)
    else
      match FromJson(j)
      case None => None
      case Some(d) => Some(Some(d))
  }

  /** Reads a descriptor object back; `None` when the object is not one. */
  function FromJson(j: J): Option<Descriptor>
    decreases j, 1
  {
    if !j.JObj? then None
    else
      var style := Member(j, "valueStyle");
      var vt := Member(j, "valueType");
      if style == JStr("basetype") && vt.JStr? then Some(BaseDesc(vt.s))
      else if style == JStr("identifier") && vt.JStr? then Some(IdentDesc(vt.s))
      else if style == JStr("set") || style == JStr("list") then
        if "valueType" !in j.fields then None
        else
          match ComponentFromJson(j.fields["valueType"])
          case None => None
          case Some(e) => if style == JStr("set") then Some(SetDesc(e)) else Some(ListDesc(e))
      else if style == JStr("map") then
        if "valueType" !in j.fields || "keyType" !in j.fields then None
        else
          match (ComponentFromJson(j.fields["keyType"]), ComponentFromJson(j.fields["valueType"]))
          case (Some(k), Some(v)) => Some(MapDesc(k, v))
          case _ => None
      else None
  }

  /** The JavaScript object form of a descriptor determines the descriptor. */
  lemma {:induction false} JsonRoundTrip(d: Descriptor)
    ensures FromJson(ToJson(d)) == Some(d)
    decreases d, 1
  {
    match d
    case SetDesc(e) => ComponentRoundTrip(e);
    case ListDesc(e) => ComponentRoundTrip(e);
    case MapDesc(k, v) => ComponentRoundTrip(k); ComponentRoundTrip(v);
    case BaseDesc(_) =>
    case IdentDesc(_) =>
  }

  lemma {:induction false} ComponentRoundTrip(c: Option<Descriptor>)
    ensures ComponentFromJson(ComponentJson(c)) == Some(c)
    decreases c, 0
  {
    if c.Some? {
      JsonRoundTrip(c.value);
      assert ComponentJson(c) == ToJson(c.value);
      assert !ToJson(c.value).JUndefined?;
    }
  }
}

=== FILE: wrappers.dfy ===
/** Option and Result, the two failure-compatible wrappers the model uses. */
module Wrappers {

  /** A value that may be absent: JavaScript's "returns nothing". */
  datatype Option<+T> = None | Some(value: T)

  /** A computation that either produced a value or raised an error. */
  datatype Result<+T, +E> = Ok(value: T) | Err(error: E) {

    predicate IsFailure() {
      Err?
    }

    function PropagateFailure<U>(): Result<U, E>
      requires Err?
    {
      Err(error)
    }

    function Extract(): T
      requires Ok?
    {
      value
    }
  }
}
